=== FILE: README.md ===
# pebble — a verified model of the engine core

pebble is a small 2D engine. Gameobjects are Lua scripts, and each gameobject
reloads its script when the script's file is saved. This project models the
engine's core in Dafny and proves what its frame loop, its Lua bindings and
its texture registry do. There is one module per source file:

| module | file | form |
|---|---|---|
| `LuaBinding` (`lua.dfy`) | `src/lua.rs` | The `user_data!` decoders as a data-driven decoder over a `Schema`, plus `Script` as a value: a name, a source text and the global table of the interpreter it owns. |
| `Assets` (`assets.dfy`) | `src/assets.rs` | `LuaAsset` decoding, plus the `AssetsLoader` class whose `textures` map `Add` updates in place. |
| `GameObject` (`gameobject.dfy`) | `src/gameobject.rs` | The `Gameobject` class: the script, the name, and the watcher channel as a queue of notifications. `Update` is proved against the step function `UpdateStep`. |
| `Pebble` (`main.dfy`) | `src/main.rs` | The configuration mode, the logger's filters, the struct shapes `Vector`, `Transform`, `Color` and `Material`, `format_log`, the `rust_log` methods and `add_core_library`. |
| `Engine` (`core.dfy`) | `src/core.rs` | The `Core` class and the `Loop` class. `Loop.New` gathers the textures, `Loop.Update` runs every gameobject's `update`, and `Loop.Draw` draws each gameobject with the decoders as written. Each method is proved against a function, and lemmas state what that function means. |
| `EngineState` (`state.dfy`) | `src/state.rs` | The `State` frame loops. Each gameobject holds its `GameObject` frame and a loaded flag, and `update` runs `Gameobject::update` on it. Calls to members the other files do not define are recorded as a trace. |
| `Wrappers`, `Text` | — | `Option`, `Result` and `Outcome`; prefix, substring and number-to-text helpers. |

Things outside the engine are modelled as inputs:
- **The Lua interpreter** is a value `Vm`. `exec` runs a chunk against a global table. `call` runs a function. `pairs` gives a table's iteration order. `co` holds the coercions of numbers and strings.
- **The file system** is a map from file names to contents.
- **Image loading** is a function from a path to an image or an error.
- **The file watcher's notifications** are the receiver queue of each gameobject.
- **The frame's delta** is a `real`.

A Rust panic becomes a value:
- `Outcome.Panic(message)` beside `Success` and `Failure(error)`;
- for frame loops, `Status.Aborted(message)`.

A function that panics therefore reports exactly where and with which message it panics.

## Model

| member | source | states |
|---|---|---|
| LuaBinding.ConvertScalar | src/lua.rs:45 | mlua's conversions for table, function and string fields succeed exactly when the value has that type (or coerces to text); they return errors, never panic |
| LuaBinding.FromLua | src/lua.rs:26-40 | the generated `from_lua` never returns an error. An error value panics with its message, nil panics with "Value is Nil", and any other non-table panics with "Only table are supported". It succeeds exactly when the value is a table whose fields all read |
| LuaBinding.ReadFieldsStrict | src/lua.rs:42-48 | reading the fields succeeds iff every declared field reads, and then field j is the value stored under its own name. Otherwise the outcome is that of the first unreadable field in declaration order |
| LuaBinding.Decode | src/lua.rs:26-48 | the as-written decoder: scalars (strings, numbers, integers, tables, functions) report errors and never panic, and a kind that reaches no generated `from_lua` never panics. Structs panic and never report errors, and an optional nil decodes to None |
| LuaBinding.FromLuaTable | src/lua.rs:42-49 | `from_lua_table` reads the declared fields with `?`. It panics only through a struct field (possibly optional), whose generated `from_lua` unwraps (src/lua.rs:33-36); on success it is a struct with one value per declared field |
| LuaBinding.NilStructPanics | src/lua.rs:28-33 | decoding a struct from a missing global panics with "Value is Nil" |
| LuaBinding.FromLuaChecked | src/lua.rs:26-40 | the corrected `from_lua` (propagating with `?`) returns the same three error messages as errors |
| LuaBinding.CheckedOnlySoftens | src/lua.rs:26-48 | the corrected decoder equals the as-written one except that a panic becomes an error with the same message |
| LuaBinding.FromLuaCheckedOnlySoftens | src/lua.rs:26-40 | the same for a struct value |
| LuaBinding.ReadFieldsCheckedOnlySoftens | src/lua.rs:35-38 | the same for the field list |
| LuaBinding.CheckedConforms | src/lua.rs:35-38 | every successful decode has the declared shape, field by field and recursively |
| LuaBinding.ReadFieldsConform | src/lua.rs:35-38 | decoded fields have their declared kinds, one per field |
| LuaBinding.ArrayFromLua | src/lua.rs:65-79 | `LuaArray::from_lua` passes an error value on and rejects any other non-table with "Not a array". A table converts iff `count` is an integer and `data` is a table, and the result holds both; a bad `count` is reported first |
| LuaBinding.Iter | src/lua.rs:59-63 | `iter` yields one pair per key of `data`, in `pairs` order |
| LuaBinding.IterIgnoresCount | src/lua.rs:59-63 | the iteration covers exactly the keys of `data`, decodes each entry on its own, and does not depend on `count` |
| LuaBinding.Script.New | src/lua.rs:89-91 | name and content are kept verbatim, and the interpreter holds no script-defined globals (the standard library `Lua::new` loads belongs to the `Vm`) |
| LuaBinding.Script.FromFile | src/lua.rs:93-95 | succeeds iff the file can be read; the script holds the file's name and contents and is not run |
| LuaBinding.Script.Run | src/lua.rs:109-112 | running keeps name and content, leaves the globals the chunk produced, and succeeds iff the chunk does |
| LuaBinding.Script.Get | src/lua.rs:114-116 | a present global is decoded as its type, and a missing global read as a struct panics with "Value is Nil" |
| LuaBinding.Script.GetChecked | src/lua.rs:114-116 | `get` with the corrected decoder reports exactly the as-written outcome, with panics softened to errors |
| LuaBinding.Script.GetFunction | src/lua.rs:119 | succeeds iff the global exists and is a function, and returns that function |
| LuaBinding.Script.Call | src/lua.rs:120 | a call keeps name and content, and its result and new globals are the interpreter's |
| LuaBinding.Script.CallFunction | src/lua.rs:118-121 | a missing or non-function global is an error and runs nothing; otherwise the function runs, and the result is Ok iff the call is |
| LuaBinding.Script.CallMethod | src/lua.rs:123-126 | like `call_function`: a missing function is an error and runs nothing. Otherwise the globals become the call's, a call error is returned as that error, and on success the first returned value (nil when none) is decoded as the requested type |
| Assets.DecodeLuaAsset | src/assets.rs:5-11 | a `LuaAsset` decodes iff the value is a table whose `filename` and `file_type` are strings, and then it holds exactly those two strings |
| Assets.DecodeLuaAssetAsWritten | src/assets.rs:5-11 | decoding a pair's `LuaAsset` fails exactly where the generated `from_lua` panics, with the same message |
| Assets.AddTo | src/assets.rs:28-39 | `add` succeeds iff the type is "image" and the image at "/" + filename loads. A non-image panics with "File type is not recognized", and a failed load returns its error. On success the key set grows by the filename, the new entry holds the record and image, and every other entry is unchanged |
| Assets.AssetsLoader.constructor | src/assets.rs:24-26 | a new loader holds no textures |
| Assets.AssetsLoader.Add | src/assets.rs:28-39 | the method's outcome is `AddTo`'s, and the table changes (to `AddTo`'s result) only on success |
| Assets.AssetsLoader.GetTexture | src/assets.rs:41-43 | the lookup finds an asset iff the filename is a key, and returns that entry |
| Assets.GetAfterAdd | src/assets.rs:33 | after an add, the added filename finds its record, and any other filename is found iff it was before |
| GameObject.Load | src/gameobject.rs:17-33 | construction succeeds iff the file reads, the script runs and the watcher is installed. The script is then the fresh script after its run |
| GameObject.UpdateStep | src/gameobject.rs:39-56 | one `update` keeps the object's name, and panics exactly when `Update` is missing, the first notification is a watcher error, or it is close-after-write and the file cannot be read or its run fails |
| GameObject.LoadRunsBeforeWatching | src/gameobject.rs:19-25 | when the script's run fails, that error is reported whatever the watcher does |
| GameObject.StepTakesAtMostOne | src/gameobject.rs:45-54 | an update removes at most the first notification, and removes it whenever `Update` exists. The name never changes |
| GameObject.MissingUpdateAborts | src/gameobject.rs:40 | a missing `Update` global panics before anything changes |
| GameObject.EmptyQueueKeepsScript | src/gameobject.rs:40-45 | with no notification the step completes whatever `Update` returned, keeping the script's name and content |
| GameObject.OtherEventsIgnored | src/gameobject.rs:46-48 | any event other than close-after-write is consumed with no effect beyond the `Update` call |
| GameObject.WatchErrorAborts | src/gameobject.rs:47 | an error delivered by the watcher panics with its message |
| GameObject.CloseWriteReloads | src/gameobject.rs:48-50 | close-after-write replaces the script with a fresh one read from the same name and run from empty globals. An unreadable file or failing run panics |
| GameObject.StepKeepsScriptName | src/gameobject.rs:49 | a script named after its object keeps that name across steps |
| GameObject.Gameobject.Build | src/gameobject.rs:27-32 | the literal stores the name and script with an empty queue |
| GameObject.Gameobject.New | src/gameobject.rs:17-33 | the method's outcome is `Load`'s: on success a fresh object whose script carries its name, and on error that error |
| GameObject.Gameobject.Update | src/gameobject.rs:39-56 | the new state and status are `UpdateStep` of the old state, and a script named after the object stays so |
| Pebble.ConfigMode | src/main.rs:30-43 | the mode is Debug iff the variable `PebbleMode` is "debug" |
| Pebble.LoggerFilters | src/main.rs:106-120 | everything defaults to Error, and targets under "pebble" get Info in release mode and Trace in debug mode |
| Pebble.MaxLevel | src/main.rs:122-127 | the global maximum is the more verbose of the two directives |
| Pebble.Enabled | src/main.rs:131-133 | a line is enabled only if its level is within the global maximum |
| Pebble.FiltersByMode | src/main.rs:108-120 | engine targets keep error, warn and info in release mode and everything in debug mode. Other targets keep only errors |
| Pebble.TextureOf | src/main.rs:74-80 | a decoded material's texture is absent iff the field is None, and otherwise is its string |
| Pebble.DefaultMaterialUntextured | src/main.rs:152-160 | `Material::new` has the declared shape and no texture |
| Pebble.LogFile | src/main.rs:176-180 | for a Rust frame the file shown is the script's name without "./", whatever the frame says. Any other source path is shown with every "./" deleted, and unchanged when it holds none |
| Text.StripDotSlash | src/main.rs:180 | deleting "./" never lengthens the text |
| Text.StripDeletesOccurrence | src/main.rs:180 | each "./" is deleted where it stands: the text before it and the text after it are stripped independently and joined |
| Text.StripWithoutOccurrence | src/main.rs:180 | a text without "./" is left unchanged |
| Pebble.FormatLog | src/main.rs:172-183 | the message succeeds iff a frame with a source name exists, and otherwise panics. It is exactly the data, " on [", the shown file, ":", the frame's line as decimal text, and "]" |
| Pebble.FormatLogLineReadsBack | src/main.rs:182 | the digits before the final "]" read back as the frame's line |
| Pebble.SinglePassLeavesDotSlash | src/main.rs:180 | the deletion is a single pass: "..//" shows as "./" |
| Pebble.MethodLevel | src/main.rs:187-193 | exactly the five method names info, warn, error, debug and trace exist |
| Pebble.MethodLevelRoundTrip | src/main.rs:187-193 | every level has exactly one method, named after it |
| Pebble.LogCall | src/main.rs:188-192 | an unknown method is an error to the script. A level above the maximum is dropped before formatting. A kept line has the method's level, passes the engine filter and carries the formatted message. It panics only when formatting does, and a line within the maximum whose formatting panics panics with that message |
| Pebble.ReleaseDropsVerboseLines | src/main.rs:112-113 | in release mode debug and trace lines are dropped, even without a stack frame |
| Pebble.LoggerKeepsWhatPassesMaxLevel | src/main.rs:122-150 | with the installed filters every line within the maximum is kept, with its formatted message |
| Pebble.AddCoreLibrary | src/main.rs:196-200 | installs `rust_log` naming the script and leaves every other global as it was |
| Engine.Core.constructor | src/core.rs:14-18 | a new core holds no gameobjects |
| Engine.Core.AddGameobject | src/core.rs:20-24 | appends the gameobject, returns the same core, and keeps the gameobjects distinct |
| Engine.TableAt | src/core.rs:49-50 | `get::<Table>(..).unwrap()` succeeds iff the value is a table, and panics otherwise |
| Engine.TableAtIsGet | src/core.rs:49 | that helper is exactly `Script::get` as a table followed by `unwrap` |
| Engine.GatherAddsEntriesInOrder | src/core.rs:45-67 | a successful gathering adds every gameobject's `Assets.files` entries in gameobject order and then `pairs` order |
| Engine.AddAllContents | src/core.rs:58 | the loader is keyed by filename, its keys are the listed filenames, and every listed asset is an image |
| Engine.NeverListedIsAbsent | src/core.rs:45-60 | a filename no gameobject lists is not in the loader |
| Engine.GatherAll | src/core.rs:45-60 | gathering never returns an error: every failure is an `unwrap` and panics |
| Engine.UpdateAllInOrder | src/core.rs:100-103 | a completed frame gives every gameobject exactly its own step. A panicking frame has a gameobject k that panicked with the frame's message, with those before it stepped and those after untouched |
| Engine.MaterialTexture | src/core.rs:121-124 | a missing material stands for `Material::new` (src/main.rs:152-160), which asks for no texture |
| Engine.DrawDecoded | src/core.rs:122-140 | drawing decoded values never returns an error, and a drawn command holds exactly the transform and material it was given |
| Engine.DrawTextureSelection | src/core.rs:124-140 | an untextured material draws without a texture. A named texture draws the loader's image, and panics with `Option::unwrap`'s message iff the loader lacks it |
| Engine.DrawOne | src/core.rs:119-140 | as written: a gameobject whose `Transform` does not decode panics with the decoder's message before `Material` is read; then one whose `Material` does not decode panics likewise. When both decode, the outcome is `DrawDecoded` of the two values |
| Engine.DrawAsWrittenPanicsOnMissingTransform | src/core.rs:120 | as written: a gameobject without a `Transform` global makes its draw panic with "Value is Nil" |
| Engine.DrawOneCorrected | src/core.rs:120-121 | corrected: never an error, and the outcome is `DrawDecoded` of each global's decoded value, or of the default when it does not decode |
| Engine.DrawMissingGlobalsUseDefaults | src/core.rs:120-121 | corrected: a gameobject without `Transform` and `Material` draws with both defaults and no texture |
| Engine.DrawCorrectionAgrees | src/core.rs:119-140 | where both globals decode, the corrected draw and the draw as written are the same |
| Engine.DrawAllInOrder | src/core.rs:119-141 | a completed draw has one command per gameobject, each its own. Otherwise the commands before the first panicking gameobject are drawn, and the draw stops with its message |
| Engine.DrawStopsAtMissingTransform | src/core.rs:119-121 | as written, the frame's draw stops with "Value is Nil" at the first gameobject without a `Transform` global, after drawing every gameobject before it |
| Engine.RegisterFiles | src/core.rs:52-59 | the inner loop's loader and outcome are those of adding the entries in order |
| Engine.RegisterScript | src/core.rs:49-59 | one gameobject's registration agrees with `GatherOne` |
| Engine.StepOne | src/core.rs:102 | one gameobject's `update` leaves it in the state its step function gives, with that step's status |
| Engine.UpdateEach | src/core.rs:101-103 | the loop steps gameobjects up to and including the first panic, and leaves the rest as they were |
| Engine.Loop.Build | src/core.rs:62-66 | the literal stores the core and loader |
| Engine.Loop.New | src/core.rs:45-67 | a fresh loop whose fresh loader holds the gathered textures, or the first panic's message |
| Engine.Loop.Update | src/core.rs:100-112 | the gameobjects' new states and the status are `UpdateAll` of the old states |
| Engine.Loop.Draw | src/core.rs:114-144 | the commands and status are `DrawAll` of the gameobjects, with the decoders as written |
| EngineState.IconOf | src/state.rs:80-86 | every level's icon is one of the five loaded icons |
| EngineState.IconOfInjective | src/state.rs:80-86 | different levels show different icons |
| EngineState.DateToString | src/state.rs:38-40 | the time text holds only digits and ':' |
| EngineState.DateToStringInjective | src/state.rs:38-40 | different times give different texts |
| EngineState.DateToStringUnpadded | src/state.rs:39 | the hour is not padded, so the text starts with '0' iff the hour is 0 |
| EngineState.Label | src/state.rs:90-101 | the label always starts with date and message, and is longer iff the level is debug or trace |
| EngineState.LabelShowsLocationOnlyWhenVerbose | src/state.rs:90-101 | a debug or trace label is the date and message followed by " on [file:line]", and its line reads back; any other label is the date and message alone |
| EngineState.IconLoadsInOrder | src/state.rs:26-30 | icons load in order until the first failure, which panics with its error |
| EngineState.InitIconsFirst | src/state.rs:25-35 | `init` loads all five icons before initialising each gameobject exactly once in order. A failed icon panics before any gameobject is touched |
| EngineState.LoadEntry | src/state.rs:51-59 | one texture entry panics iff it does not decode. Otherwise its texture loads, and a load error is logged with the exact message |
| EngineState.LoadEntriesOnlyDecodeAborts | src/state.rs:50-60 | a refresh panics iff some entry does not decode, and failed loads do not stop it |
| EngineState.LoadEntryLoadsOnce | src/state.rs:51-59 | an entry that decodes makes exactly one `load_texture` call, for its own filename |
| EngineState.LoadEntriesLoadsEveryPair | src/state.rs:50-60 | a completed refresh makes one `load_texture` call per pair: the k-th call in the trace is for the k-th key in `pairs` order |
| EngineState.LoadEntriesCallsAreOwn | src/state.rs:50-60 | a refresh's calls concern its own gameobject, or are log lines |
| EngineState.ObjectStepGating | src/state.rs:44-66 | an unloaded gameobject is only watched. A loaded one is first asked `is_assets_reloaded`. It is refreshed only when the answer is yes, and a refresh panic stops it before `update`. Otherwise it is updated once by `Gameobject::update`, whose status becomes its own, and watched only when that completes |
| EngineState.ObjectStepCallsAreOwn | src/state.rs:44-66 | one gameobject's part of `update` makes calls about that gameobject only, or logs lines |
| EngineState.Stepped | src/state.rs:45-64 | a gameobject's part of `update` keeps its loaded flag and name, leaves an unloaded one unchanged, and, when it completes, leaves the frame `Gameobject::update` produced |
| EngineState.UpdateWatchesEveryObject | src/state.rs:43-67 | a completed `update` watched every gameobject and updated exactly the loaded ones, each of whose `Gameobject::update` completed |
| EngineState.DrawRendersLoadedInOrder | src/state.rs:117-121 | `draw` renders exactly the loaded gameobjects, once each, in order |
| EngineState.State.constructor | src/state.rs:17-23 | a new state has made no calls |
| EngineState.State.LoadIcon | src/state.rs:26 | records one icon load, and panics iff it fails |
| EngineState.State.LoadIcons | src/state.rs:26-30 | the five icon loads' calls and status are `IconLoads` of the icons in order |
| EngineState.State.Init | src/state.rs:25-35 | the calls and status are `InitTrace` |
| EngineState.State.RefreshAssets | src/state.rs:46-61 | the calls and status are `Refresh` of the gameobject's script |
| EngineState.State.LoadFiles | src/state.rs:50-60 | the loop over the texture pairs records `LoadEntries` of the keys in order, with its status |
| EngineState.State.LoadFile | src/state.rs:51-59 | the calls and status are `LoadEntry` |
| EngineState.State.StepObject | src/state.rs:45-66 | the calls and status are `ObjectStep`, and only gameobject i changes, to `Stepped` |
| EngineState.State.Update | src/state.rs:43-67 | the calls and status are `UpdateTrace`. A completed frame steps every gameobject. A panicking one steps the first k gameobjects and leaves the rest unchanged, where k is pinned: the first k-1 steps complete and the k-th panics |
| EngineState.State.Draw | src/state.rs:114-126 | the calls are `Rendered`: the loaded gameobjects' renders in order |

## Left out

- Rendering is not modelled: the rectangle mesh, `DrawParam`, the albedo colour scaled by 1/255, `Vector::to` and the canvas. `Loop.Draw` yields a command holding the decoded transform, material and texture.
- The egui "Log" window and `gui.update` are not modelled. The window's pure parts are modelled: icon choice, label and date text.
- The global `LOG` buffer is not modelled, nor `MyLogger::log` pushing to it with `Utc::now()`. `LogCall` returns the kept record instead.
- `main`, `Core::run`, the ggez context and event loop are not modelled, nor `add_middleware`. `main` calls `add_gameobject("main.lua")` with a string and `add_middleware`, neither of which `Core` defines.
- The notify watcher thread and channel are replaced by a queue of notifications, with an optional error for installing the watcher.
- The event's paths are not modelled: `update` does not look at them.
- `Builder::from_env("trace")` reads an environment variable named "trace"; its directives are not modelled.
- `Transform` and `Material` derive no `Default` in `src/main.rs`. `unwrap_or_default` is modelled as None, the type's default, and a missing material is taken to be `Material::new`, which has no texture. As written the default is never reached: `get` panics first.
- `Component` (`src/main.rs:82-88`) is declared but never decoded by the engine, and is not modelled.
- `format_log` converts `short_src` from UTF-8. Strings are sequences of characters, so the conversion cannot fail here.
- `Script` keeps its interpreter as a global table owned by the value. Interpreter internals, stack traces and garbage collection are not modelled.
- `State` calls `is_loaded`, `init`, `watch`, `render`, `is_assets_reloaded`, `load_ui_texture`, `get_ui_texture`, `load_texture` and `get_filename`, which no other file defines. Each is recorded in the trace, with no semantics beyond answers from `Host`, and `is_loaded` is a fixed flag per gameobject. `go.update` is `Gameobject::update` (src/gameobject.rs:39-56), modelled by `GameObject.UpdateStep`.
- Panic messages of `Result::unwrap` are modelled by the error text alone, without Rust's "called `Result::unwrap()`" prefix.
- Lua tables are keyed by strings. Numeric keys and metatables are not modelled, and coercions are the inputs in `Coercion`.
- `f32` is modelled as `real`: no rounding.
- `FromLua`, `Script.Get` and the draw use the decoder as written. `DecodeLuaAsset` uses the corrected `FromLuaChecked`, but every caller turns its error into a panic, so the outcome and message are the as-written ones (`DecodeLuaAssetAsWritten`).
- A panic inside a host function called from Lua is not modelled. An example is `rust_log` panicking in `format_log` while a script's `Update` runs, which mlua raises again in the caller. `Vm.call` returns only a result and new globals, so `UpdateStep` cannot panic through it.

Where the code and the intended design differ, the model follows the code:
- one notification is taken per frame, not the whole queue;
- a reload whose file cannot be read panics;
- the event's path is not checked;
- the gameobject in `src/gameobject.rs` has no `is_loaded` flag.

## Findings

| source | as written | input that shows it | evidently intended | confidence | as-written member | corrected member |
|---|---|---|---|---|---|---|
| src/lua.rs:28-36, src/core.rs:120-121 | the generated `from_lua` unwraps, so `get("Transform")` on a missing global panics before `unwrap_or_default` can act | a gameobject whose script defines no `Transform` global | a missing or malformed `Transform`/`Material` draws with the default | not executed | Engine.DrawStopsAtMissingTransform | Engine.DrawMissingGlobalsUseDefaults |

`Loop.Draw` keeps the behaviour as written. `DrawOneCorrected` is the corrected draw, and `DrawCorrectionAgrees` shows that the two agree wherever both globals decode.

=== FILE: assets.dfy ===
/**
 * The texture registry of `src/assets.rs`: `LuaAsset` records read from
 * scripts and the `AssetsLoader` table that `add` fills in place.
 *
 * Loading an image from disk is foreign (ggez): it is an oracle from the
 * requested path to an image handle or an error.
 */
module Assets {
  import opened Wrappers
  import opened LuaBinding

  /** `LuaAsset { filename, file_type }`. */
  datatype LuaAsset = LuaAsset(filename: string, fileType: string)

  /** The `user_data!` declaration of `LuaAsset`: both fields are strings. */
  const LuaAssetSchema := Schema([Field("filename", KText), Field("file_type", KText)])

  /** An image handle handed out by the graphics context. */
  datatype Image = Image(handle: nat)

  /** `Asset<Image>`: the record it was loaded from and the loaded image. */
  datatype Asset = Asset(lua: LuaAsset, value: Image)

  /**
   * A value decoded as a `LuaAsset` (with the corrected decoder: a failure
   * is returned, not unwrapped): it must be a table whose `filename` and
   * `file_type` both convert to strings.
   */
  function DecodeLuaAsset(co: Coercion, v: Value): (r: Result<LuaAsset>)
    ensures r.Ok? <==>
      && v.Table?
      && co.toText(Lookup(v.entries, "filename")).Some?
      && co.toText(Lookup(v.entries, "file_type")).Some?
    ensures r.Ok? ==>
      r.value == LuaAsset(co.toText(Lookup(v.entries, "filename")).value,
                          co.toText(Lookup(v.entries, "file_type")).value)
  {
    match FromLuaChecked(co, LuaAssetSchema, v)
    case Err(e) => Err(e)
    case Ok(d) =>
      CheckedConforms(co, KStruct(LuaAssetSchema), v);
      assert FieldConforms(d.values[0], LuaAssetSchema, 0);
      assert FieldConforms(d.values[1], LuaAssetSchema, 1);
      Ok(LuaAsset(d.values[0].text, d.values[1].text))
  }

  /**
   * The record as the generated decoder reads it: where `DecodeLuaAsset`
   * returns an error, the macro's `from_lua` panics with that same message,
   * so a caller that unwraps the error panics exactly as the code does.
   */
  lemma DecodeLuaAssetAsWritten(co: Coercion, v: Value)
    ensures DecodeLuaAsset(co, v).Err? <==> FromLua(co, LuaAssetSchema, v).Panic?
    ensures DecodeLuaAsset(co, v).Err? ==> DecodeLuaAsset(co, v).error == FromLua(co, LuaAssetSchema, v).message
  {
    FromLuaCheckedOnlySoftens(co, LuaAssetSchema, v);
  }

  /** The path an asset's image is requested from. */
  function ImagePath(lua: LuaAsset): string
  {
    "/" + lua.filename
  }

  /**
   * What `add` does to the texture table: an "image" whose load succeeds is
   * stored under its filename, replacing any earlier entry and touching no
   * other key; a failed load returns the error before anything is stored;
   * any other file type panics.
   */
  function AddTo(textures: map<string, Asset>, lua: LuaAsset, load: string -> Result<Image>): (r: Outcome<map<string, Asset>>)
    ensures r.Success? <==> lua.fileType == "image" && load(ImagePath(lua)).Ok?
    ensures lua.fileType != "image" ==> r == Panic("File type is not recognized")
    ensures lua.fileType == "image" && load(ImagePath(lua)).Err? ==> r == Failure(load(ImagePath(lua)).error)
    ensures r.Success? ==>
      && lua.filename in r.value
      && r.value[lua.filename] == Asset(lua, load(ImagePath(lua)).value)
      && r.value.Keys == textures.Keys + {lua.filename}
      && forall k :: k in textures && k != lua.filename ==> r.value[k] == textures[k]
  {
    if lua.fileType == "image" then
      match load(ImagePath(lua))
      case Err(e) => Failure(e)
      case Ok(image) => Success(textures[lua.filename := Asset(lua, image)])
    else
      Panic("File type is not recognized")
  }

  /** `AssetsLoader`: the textures loaded so far, by filename. */
  class AssetsLoader {
    var textures: map<string, Asset>

    /** `AssetsLoader::new`: an empty table. */
    constructor ()
      ensures textures == map[]
    {
      textures := map[];
    }

    /** `AssetsLoader::add`: the table changes only when the outcome is a success. */
    method Add(lua: LuaAsset, load: string -> Result<Image>) returns (r: Outcome<()>)
      modifies this
      ensures r == Forget(AddTo(old(textures), lua, load))
      ensures textures == if r.Success? then AddTo(old(textures), lua, load).value else old(textures)
    {
      var filename := lua.filename;
      if lua.fileType == "image" {
        var image := load("/" + filename);
        if image.Err? {
          return Failure(image.error);
        }
        textures := textures[filename := Asset(lua, image.value)];
      } else {
        return Panic("File type is not recognized");
      }
      return Success(());
    }

    /** `AssetsLoader::get_texture`: a read-only lookup. */
    function GetTexture(filename: string): (r: Option<Asset>)
      reads this
      ensures r.Some? <==> filename in textures
      ensures r.Some? ==> r.value == textures[filename]
    {
      if filename in textures then Some(textures[filename]) else None
    }
  }

  /** The textures after adding `lua` and then asking for its filename. */
  lemma GetAfterAdd(textures: map<string, Asset>, lua: LuaAsset, load: string -> Result<Image>, filename: string)
    requires AddTo(textures, lua, load).Success?
    ensures var t := AddTo(textures, lua, load).value;
      && (filename == lua.filename ==> filename in t && t[filename].lua == lua)
      && (filename != lua.filename ==> (filename in t <==> filename in textures))
  {
  }
}

=== FILE: core.dfy ===
/**
 * The frame loop of `src/core.rs`.
 *
 * `Core` collects gameobjects; `Loop::new` walks every gameobject's
 * `Assets.files` table and registers each entry with an `AssetsLoader`;
 * each frame `update` steps every gameobject in order and `draw` reads
 * every gameobject's `Transform` and `Material` and picks its texture.
 * The graphics context is an oracle: `load` answers image loads, and a
 * draw is recorded as a `DrawCmd` instead of being rendered.
 */
module Engine {
  import opened Wrappers
  import opened LuaBinding
  import opened Assets
  import opened GameObject
  import Pebble

  /** No gameobject appears twice: each is owned by exactly one slot. */
  predicate Distinct(gos: seq<Gameobject>)
  {
    forall i, j :: 0 <= i < j < |gos| ==> gos[i] != gos[j]
  }

  /** What `update` and `draw` see of the gameobjects, in order. */
  function Snapshot(gos: seq<Gameobject>): (r: seq<Frame>)
    reads gos
    ensures |r| == |gos|
    ensures forall i :: 0 <= i < |gos| ==> r[i] == gos[i].State()
  {
    if |gos| == 0 then [] else Snapshot(gos[..|gos| - 1]) + [gos[|gos| - 1].State()]
  }

  /** `Core`: the gameobjects, in the order they were added. */
  class Core {
    var gameobjects: seq<Gameobject>

    /** `Core::new`. */
    constructor ()
      ensures gameobjects == []
    {
      gameobjects := [];
    }

    /**
     * `Core::add_gameobject`: appends and hands back the same core.  The
     * gameobject is moved in, so it is not already held.
     */
    method AddGameobject(g: Gameobject) returns (self: Core)
      requires g !in gameobjects
      modifies this
      ensures gameobjects == old(gameobjects) + [g]
      ensures self == this
      ensures old(Distinct(gameobjects)) ==> Distinct(gameobjects)
    {
      gameobjects := gameobjects + [g];
      return this;
    }
  }

  // ---------------------------------------------------------------------
  // Asset gathering (src/core.rs:45-67)
  // ---------------------------------------------------------------------

  /** `t.get::<_, Table>(key).unwrap()`: the table stored under `key`, or a panic. */
  function TableAt(t: map<string, Value>, key: string): (r: Outcome<map<string, Value>>)
    ensures !r.Failure?
    ensures r.Success? <==> Lookup(t, key).Table?
    ensures r.Success? ==> r.value == Lookup(t, key).entries
  {
    match Lookup(t, key)
    case Table(entries) => Success(entries)
    case v => Panic(ConversionError(v, "table"))
  }

  /** `TableAt` on the globals is `Script::get::<_, Table>` followed by `unwrap`. */
  lemma TableAtIsGet(s: Script, vm: Vm, key: string)
    ensures var g := Unwrap(s.Get(vm, KTable, key));
      && (g.Success? <==> TableAt(s.globals, key).Success?)
      && (g.Success? ==> g.value == DTable(TableAt(s.globals, key).value))
      && (g.Panic? ==> g.message == TableAt(s.globals, key).message)
  {
  }

  /** The `files` table inside a script's global `Assets` table. */
  function AssetFiles(s: Script): (r: Outcome<map<string, Value>>)
    ensures !r.Failure?
  {
    match TableAt(s.globals, "Assets")
    case Success(assets) => TableAt(assets, "files")
    case Failure(e) => Failure(e)
    case Panic(m) => Panic(m)
  }

  /** One pair of `files`: its value decoded as a `LuaAsset` and added; either failure panics. */
  function AddEntry(textures: map<string, Asset>, co: Coercion, v: Value, load: string -> Result<Image>): (r: Outcome<map<string, Asset>>)
    ensures !r.Failure?
  {
    match DecodeLuaAsset(co, v)
    case Err(e) => Panic(e)
    case Ok(asset) => Unwrap(AddTo(textures, asset, load))
  }

  /** The pairs of `files` under `keys`, in that order, stopping at the first panic. */
  function AddEntries(textures: map<string, Asset>, co: Coercion, files: map<string, Value>, keys: seq<string>, load: string -> Result<Image>): (r: Outcome<map<string, Asset>>)
    ensures !r.Failure?
    decreases |keys|
  {
    if |keys| == 0 then Success(textures)
    else
      match AddEntries(textures, co, files, keys[..|keys| - 1], load)
      case Success(t) => AddEntry(t, co, Lookup(files, keys[|keys| - 1]), load)
      case Failure(e) => Failure(e)
      case Panic(m) => Panic(m)
  }

  /** One gameobject's contribution: its `Assets.files` pairs in the interpreter's `pairs` order. */
  function GatherOne(textures: map<string, Asset>, s: Script, vm: Vm, load: string -> Result<Image>): (r: Outcome<map<string, Asset>>)
    ensures !r.Failure?
  {
    match AssetFiles(s)
    case Success(files) => AddEntries(textures, vm.co, files, vm.pairs(files), load)
    case Failure(e) => Failure(e)
    case Panic(m) => Panic(m)
  }

  /** The texture table `Loop::new` builds from the gameobjects, in order. */
  function GatherAll(frames: seq<Frame>, vm: Vm, load: string -> Result<Image>): (r: Outcome<map<string, Asset>>)
    ensures !r.Failure?
    decreases |frames|
  {
    if |frames| == 0 then Success(map[])
    else
      match GatherAll(frames[..|frames| - 1], vm, load)
      case Success(t) => GatherOne(t, frames[|frames| - 1].script, vm, load)
      case Failure(e) => Failure(e)
      case Panic(m) => Panic(m)
  }

  lemma {:induction false} AddEntriesStops(textures: map<string, Asset>, co: Coercion, files: map<string, Value>, keys: seq<string>, j: nat, load: string -> Result<Image>)
    requires j <= |keys|
    requires !AddEntries(textures, co, files, keys[..j], load).Success?
    ensures AddEntries(textures, co, files, keys, load) == AddEntries(textures, co, files, keys[..j], load)
    decreases |keys|
  {
    if j < |keys| {
      var front := keys[..|keys| - 1];
      assert front[..j] == keys[..j];
      AddEntriesStops(textures, co, files, front, j, load);
    } else {
      assert keys[..j] == keys;
    }
  }

  lemma {:induction false} GatherAllStops(frames: seq<Frame>, k: nat, vm: Vm, load: string -> Result<Image>)
    requires k <= |frames|
    requires !GatherAll(frames[..k], vm, load).Success?
    ensures GatherAll(frames, vm, load) == GatherAll(frames[..k], vm, load)
    decreases |frames|
  {
    if k < |frames| {
      var front := frames[..|frames| - 1];
      assert front[..k] == frames[..k];
      GatherAllStops(front, k, vm, load);
    } else {
      assert frames[..k] == frames;
    }
  }

  // The same walk, specified in two phases: first every entry of every
  // gameobject is decoded, then the decoded assets are added in that order.

  /** Decode the pairs under `keys`; the first undecodable entry panics. */
  function DecodeAll(co: Coercion, files: map<string, Value>, keys: seq<string>): (r: Outcome<seq<LuaAsset>>)
    ensures !r.Failure?
    ensures r.Success? ==> |r.value| == |keys|
    decreases |keys|
  {
    if |keys| == 0 then Success([])
    else
      match DecodeAll(co, files, keys[..|keys| - 1])
      case Success(front) =>
        (match DecodeLuaAsset(co, Lookup(files, keys[|keys| - 1]))
         case Ok(asset) => Success(front + [asset])
         case Err(e) => Panic(e))
      case Failure(e) => Failure(e)
      case Panic(m) => Panic(m)
  }

  /** Every asset entry of every gameobject, in gameobject order and then `pairs` order. */
  function AllEntries(frames: seq<Frame>, vm: Vm): (r: Outcome<seq<LuaAsset>>)
    ensures !r.Failure?
    decreases |frames|
  {
    if |frames| == 0 then Success([])
    else
      match AllEntries(frames[..|frames| - 1], vm)
      case Success(front) =>
        (match AssetFiles(frames[|frames| - 1].script)
         case Success(files) =>
           (match DecodeAll(vm.co, files, vm.pairs(files))
            case Success(last) => Success(front + last)
            case Failure(e) => Failure(e)
            case Panic(m) => Panic(m))
         case Failure(e) => Failure(e)
         case Panic(m) => Panic(m))
      case Failure(e) => Failure(e)
      case Panic(m) => Panic(m)
  }

  /** `add(..).unwrap()` for each asset in order. */
  function AddAll(textures: map<string, Asset>, assets: seq<LuaAsset>, load: string -> Result<Image>): (r: Outcome<map<string, Asset>>)
    ensures !r.Failure?
    decreases |assets|
  {
    if |assets| == 0 then Success(textures)
    else
      match AddAll(textures, assets[..|assets| - 1], load)
      case Success(t) => Unwrap(AddTo(t, assets[|assets| - 1], load))
      case Failure(e) => Failure(e)
      case Panic(m) => Panic(m)
  }

  /** Adding a concatenation is adding the parts one after the other. */
  lemma {:induction false} AddAllAppend(textures: map<string, Asset>, a: seq<LuaAsset>, b: seq<LuaAsset>, load: string -> Result<Image>)
    ensures AddAll(textures, a + b, load) ==
      match AddAll(textures, a, load)
      case Success(t) => AddAll(t, b, load)
      case other => other
    decreases |b|
  {
    if |b| == 0 {
      assert a + b == a;
    } else {
      var b' := b[..|b| - 1];
      assert (a + b)[..|a + b| - 1] == a + b';
      assert (a + b)[|a + b| - 1] == b[|b| - 1];
      AddAllAppend(textures, a, b', load);
    }
  }

  /** Within one gameobject, decoding then adding is what the interleaved walk does when it succeeds. */
  lemma {:induction false} AddEntriesInTwoPhases(textures: map<string, Asset>, co: Coercion, files: map<string, Value>, keys: seq<string>, load: string -> Result<Image>)
    requires AddEntries(textures, co, files, keys, load).Success?
    ensures DecodeAll(co, files, keys).Success?
    ensures AddEntries(textures, co, files, keys, load) == AddAll(textures, DecodeAll(co, files, keys).value, load)
    decreases |keys|
  {
    if |keys| > 0 {
      var front := keys[..|keys| - 1];
      AddEntriesInTwoPhases(textures, co, files, front, load);
      var decoded := DecodeAll(co, files, front).value;
      var asset := DecodeLuaAsset(co, Lookup(files, keys[|keys| - 1]));
      assert asset.Ok?;
      var all := decoded + [asset.value];
      assert DecodeAll(co, files, keys) == Success(all);
      assert all[..|all| - 1] == decoded;
    }
  }

  /**
   * `Loop::new` registers every entry of every gameobject's `Assets.files`,
   * in gameobject order: when it succeeds, its table is the one obtained by
   * adding the list of all entries, in that order, to an empty table.
   */
  lemma {:induction false} GatherAddsEntriesInOrder(frames: seq<Frame>, vm: Vm, load: string -> Result<Image>)
    requires GatherAll(frames, vm, load).Success?
    ensures AllEntries(frames, vm).Success?
    ensures GatherAll(frames, vm, load) == AddAll(map[], AllEntries(frames, vm).value, load)
    decreases |frames|
  {
    if |frames| > 0 {
      var front := frames[..|frames| - 1];
      var s := frames[|frames| - 1].script;
      GatherAddsEntriesInOrder(front, vm, load);
      var before := AllEntries(front, vm).value;
      var t := GatherAll(front, vm, load).value;
      var files := AssetFiles(s).value;
      AddEntriesInTwoPhases(t, vm.co, files, vm.pairs(files), load);
      var last := DecodeAll(vm.co, files, vm.pairs(files)).value;
      AddAllAppend(map[], before, last, load);
    }
  }

  /** Every key of the table names its own asset. */
  predicate KeyedByFilename(textures: map<string, Asset>)
  {
    forall f :: f in textures ==> textures[f].lua.filename == f
  }

  /** Adding one image keeps every key naming its own asset. */
  lemma AddToKeyedByFilename(textures: map<string, Asset>, a: LuaAsset, load: string -> Result<Image>)
    requires KeyedByFilename(textures) && AddTo(textures, a, load).Success?
    ensures KeyedByFilename(AddTo(textures, a, load).value)
  {
    var t := AddTo(textures, a, load).value;
    forall f | f in t
      ensures t[f].lua.filename == f
    {
      if f != a.filename {
        assert t[f] == textures[f];
      }
    }
  }

  lemma FilenamesSnoc(front: seq<LuaAsset>, a: LuaAsset)
    ensures (set x | x in front + [a] :: x.filename) == (set x | x in front :: x.filename) + {a.filename}
  {
  }

  /**
   * After adding a list of assets the table holds exactly the filenames
   * already there and those of the list, each under its own name, and
   * every asset of the list was an image.
   */
  lemma {:induction false} AddAllContents(textures: map<string, Asset>, assets: seq<LuaAsset>, load: string -> Result<Image>)
    requires KeyedByFilename(textures)
    requires AddAll(textures, assets, load).Success?
    ensures var t := AddAll(textures, assets, load).value;
      && KeyedByFilename(t)
      && t.Keys == textures.Keys + (set a | a in assets :: a.filename)
      && forall a :: a in assets ==> a.fileType == "image"
  {
    AddAllKeyedByFilename(textures, assets, load);
    AddAllKeys(textures, assets, load);
    AddAllImages(textures, assets, load);
  }

  lemma {:induction false} AddAllKeyedByFilename(textures: map<string, Asset>, assets: seq<LuaAsset>, load: string -> Result<Image>)
    requires KeyedByFilename(textures)
    requires AddAll(textures, assets, load).Success?
    ensures KeyedByFilename(AddAll(textures, assets, load).value)
    decreases |assets|
  {
    if |assets| > 0 {
      var front := assets[..|assets| - 1];
      var p := AddAll(textures, front, load);
      assert p.Success?;
      AddAllKeyedByFilename(textures, front, load);
      AddToKeyedByFilename(p.value, assets[|assets| - 1], load);
    }
  }

  lemma {:induction false} AddAllKeys(textures: map<string, Asset>, assets: seq<LuaAsset>, load: string -> Result<Image>)
    requires AddAll(textures, assets, load).Success?
    ensures AddAll(textures, assets, load).value.Keys == textures.Keys + (set a | a in assets :: a.filename)
    decreases |assets|
  {
    if |assets| > 0 {
      var front := assets[..|assets| - 1];
      var a := assets[|assets| - 1];
      var p := AddAll(textures, front, load);
      assert p.Success?;
      AddAllKeys(textures, front, load);
      assert AddAll(textures, assets, load).value.Keys == p.value.Keys + {a.filename};
      assert assets == front + [a];
      FilenamesSnoc(front, a);
    }
  }

  lemma {:induction false} AddAllImages(textures: map<string, Asset>, assets: seq<LuaAsset>, load: string -> Result<Image>)
    requires AddAll(textures, assets, load).Success?
    ensures forall a :: a in assets ==> a.fileType == "image"
    decreases |assets|
  {
    if |assets| > 0 {
      var front := assets[..|assets| - 1];
      var a := assets[|assets| - 1];
      assert AddAll(textures, front, load).Success?;
      AddAllImages(textures, front, load);
      assert a.fileType == "image";
      forall x | x in assets
        ensures x.fileType == "image"
      {
        if x != a {
          assert x in front;
        }
      }
    }
  }

  /** A filename that no entry names is not a texture after `Loop::new`. */
  lemma NeverListedIsAbsent(frames: seq<Frame>, vm: Vm, load: string -> Result<Image>, filename: string)
    requires GatherAll(frames, vm, load).Success?
    ensures AllEntries(frames, vm).Success?
    ensures (forall a :: a in AllEntries(frames, vm).value ==> a.filename != filename)
      ==> filename !in GatherAll(frames, vm, load).value
  {
    GatherAddsEntriesInOrder(frames, vm, load);
    AddAllContents(map[], AllEntries(frames, vm).value, load);
  }

  // ---------------------------------------------------------------------
  // The frame update (src/core.rs:100-112)
  // ---------------------------------------------------------------------

  /** What each gameobject's own `update` would do to it. */
  function StepResults(frames: seq<Frame>, vm: Vm, fs: map<string, string>, delta: real): (r: seq<(Frame, Status)>)
    ensures |r| == |frames|
    ensures forall i :: 0 <= i < |frames| ==> r[i] == UpdateStep(frames[i], vm, fs, delta)
  {
    seq(|frames|, i requires 0 <= i < |frames| => UpdateStep(frames[i], vm, fs, delta))
  }

  /** The position of the first step that panics, or the number of steps when none does. */
  function FirstAbort(results: seq<(Frame, Status)>): (k: nat)
    ensures k <= |results|
    ensures forall j :: 0 <= j < k ==> results[j].1.Completed?
    ensures k < |results| ==> results[k].1.Aborted?
    decreases |results|
  {
    if |results| == 0 || results[0].1.Aborted? then 0
    else 1 + FirstAbort(results[1..])
  }

  /**
   * A frame's outcome from each object's own step: the objects up to and
   * including the first one that panics take their step, the ones after it
   * are left as they were.
   */
  function Settle(frames: seq<Frame>, results: seq<(Frame, Status)>): (r: (seq<Frame>, Status))
    requires |results| == |frames|
    ensures |r.0| == |frames|
  {
    var k := FirstAbort(results);
    (seq(|frames|, j requires 0 <= j < |frames| => if j <= k then results[j].0 else frames[j]),
     if k < |frames| then results[k].1 else Completed)
  }

  /** `update` steps every gameobject in order and a panic stops the frame. */
  function UpdateAll(frames: seq<Frame>, vm: Vm, fs: map<string, string>, delta: real): (r: (seq<Frame>, Status))
    ensures |r.0| == |frames|
  {
    Settle(frames, StepResults(frames, vm, fs, delta))
  }

  /** The settled frame, given where the first panic is. */
  lemma SettleAt(frames: seq<Frame>, results: seq<(Frame, Status)>, i: nat, after: seq<Frame>)
    requires |results| == |frames| == |after| && i <= |frames|
    requires forall j :: 0 <= j < i ==> results[j].1.Completed?
    requires i < |frames| ==> results[i].1.Aborted?
    requires forall j :: 0 <= j < |frames| ==> after[j] == if j <= i then results[j].0 else frames[j]
    ensures Settle(frames, results) == (after, if i < |frames| then results[i].1 else Completed)
  {
    var k := FirstAbort(results);
    assert k == i;
    var r := Settle(frames, results);
    assert r.0 == after by {
      forall j | 0 <= j < |frames|
        ensures r.0[j] == after[j]
      {
      }
    }
  }

  /**
   * The frame is the gameobjects' own `update`s, in order: when it
   * completes every object took exactly its step; when it panics some
   * object k panicked with the frame's message, the ones before it took
   * their completed steps and the ones after it are untouched.
   */
  lemma UpdateAllInOrder(frames: seq<Frame>, vm: Vm, fs: map<string, string>, delta: real)
    ensures var r := UpdateAll(frames, vm, fs, delta);
      r.1.Completed? ==>
        forall i :: 0 <= i < |frames| ==> UpdateStep(frames[i], vm, fs, delta) == (r.0[i], Completed)
    ensures var r := UpdateAll(frames, vm, fs, delta);
      r.1.Aborted? ==>
        exists k :: 0 <= k < |frames|
          && UpdateStep(frames[k], vm, fs, delta) == (r.0[k], r.1)
          && (forall i :: 0 <= i < k ==> UpdateStep(frames[i], vm, fs, delta) == (r.0[i], Completed))
          && r.0[k + 1..] == frames[k + 1..]
  {
    var results := StepResults(frames, vm, fs, delta);
    var k := FirstAbort(results);
    var r := UpdateAll(frames, vm, fs, delta);
    if k < |frames| {
      assert UpdateStep(frames[k], vm, fs, delta) == (r.0[k], r.1);
      assert forall i :: 0 <= i < k ==> UpdateStep(frames[i], vm, fs, delta) == results[i] == (r.0[i], Completed);
      assert r.0[k + 1..] == frames[k + 1..];
    } else {
      assert forall i :: 0 <= i < |frames| ==> UpdateStep(frames[i], vm, fs, delta) == results[i] == (r.0[i], Completed);
    }
  }

  // ---------------------------------------------------------------------
  // Drawing (src/core.rs:114-144)
  // ---------------------------------------------------------------------

  /**
   * What is drawn for one gameobject: its transform and material (None:
   * the type's default) and the texture image, if any.
   */
  datatype DrawCmd = DrawCmd(transform: Option<Data>, material: Option<Data>, texture: Option<Image>)

  /** `unwrap_or_default`: an error gives the type's default (None). */
  function OrDefault(r: Result<Data>): Option<Data>
  {
    if r.Ok? then Some(r.value) else None
  }

  /**
   * The texture a material asks for; a missing material stands for
   * `Material::new`, which asks for none.
   */
  function MaterialTexture(material: Option<Data>): (t: Option<string>)
    requires material.Some? ==> Conforms(material.value, KStruct(Pebble.MaterialSchema))
    ensures material.None? ==> t.None?
  {
    Pebble.DefaultMaterialUntextured();
    Pebble.TextureOf(if material.Some? then material.value else Pebble.DefaultMaterial)
  }

  /**
   * Drawing a decoded transform and material: the mesh is drawn untextured,
   * or with the loader's image, and `get_texture(..).unwrap()` panics when
   * the loader holds none.
   */
  function DrawDecoded(transform: Option<Data>, material: Option<Data>, textures: map<string, Asset>): (r: Outcome<DrawCmd>)
    requires material.Some? ==> Conforms(material.value, KStruct(Pebble.MaterialSchema))
    ensures !r.Failure?
    ensures r.Success? ==> r.value.transform == transform && r.value.material == material
  {
    match MaterialTexture(material)
    case None => Success(DrawCmd(transform, material, None))
    case Some(filename) =>
      if filename in textures then Success(DrawCmd(transform, material, Some(textures[filename].value)))
      else Panic("called `Option::unwrap()` on a `None` value")
  }

  /**
   * Texture selection: a material without a texture draws untextured; a
   * texture name draws the loader's image under that name, and panics
   * exactly when the loader has none.
   */
  lemma DrawTextureSelection(transform: Option<Data>, material: Option<Data>, textures: map<string, Asset>)
    requires material.Some? ==> Conforms(material.value, KStruct(Pebble.MaterialSchema))
    ensures var r := DrawDecoded(transform, material, textures);
      && (MaterialTexture(material).None? ==> r == Success(DrawCmd(transform, material, None)))
      && (MaterialTexture(material).Some? ==>
            var name := MaterialTexture(material).value;
            && (r.Success? <==> name in textures)
            && (r.Success? ==> r.value.texture == Some(textures[name].value))
            && (r.Panic? ==> r.message == "called `Option::unwrap()` on a `None` value"))
  {
  }

  /**
   * The draw of one gameobject as written: `get("Transform")` and then
   * `get("Material")` decode through the generated `from_lua`, whose
   * panic on a missing or malformed global comes before
   * `unwrap_or_default` can act; the decoded values are then drawn.
   */
  function DrawOne(s: Script, vm: Vm, textures: map<string, Asset>): (r: Outcome<DrawCmd>)
    ensures !r.Failure?
    ensures var t := s.Get(vm, KStruct(Pebble.TransformSchema), "Transform");
      t.Panic? ==> r == Panic(t.message)
    ensures var t, m := s.Get(vm, KStruct(Pebble.TransformSchema), "Transform"), s.Get(vm, KStruct(Pebble.MaterialSchema), "Material");
      t.Success? && m.Panic? ==> r == Panic(m.message)
    ensures var t, m := s.Get(vm, KStruct(Pebble.TransformSchema), "Transform"), s.Get(vm, KStruct(Pebble.MaterialSchema), "Material");
      r.Success? ==> t.Success? && m.Success? && r.value.transform == Some(t.value) && r.value.material == Some(m.value)
    ensures var t, m := s.Get(vm, KStruct(Pebble.TransformSchema), "Transform"), s.Get(vm, KStruct(Pebble.MaterialSchema), "Material");
      t.Success? && m.Success? ==> r == DrawDecoded(Some(t.value), Some(m.value), textures)
  {
    var t := s.Get(vm, KStruct(Pebble.TransformSchema), "Transform");
    if t.Panic? then Panic(t.message)
    else
      var m := s.Get(vm, KStruct(Pebble.MaterialSchema), "Material");
      if m.Panic? then Panic(m.message)
      else
        DrawDecoded(Some(t.value), Some(m.value), textures)
  }

  /**
   * The draw of one gameobject with the corrected decoder: a missing or
   * malformed `Transform` or `Material` draws with the default.
   */
  function DrawOneCorrected(s: Script, vm: Vm, textures: map<string, Asset>): (r: Outcome<DrawCmd>)
    ensures !r.Failure?
    ensures r.Success? ==> r.value.transform == OrDefault(s.GetChecked(vm, KStruct(Pebble.TransformSchema), "Transform"))
    ensures r.Success? ==> r.value.material == OrDefault(s.GetChecked(vm, KStruct(Pebble.MaterialSchema), "Material"))
    ensures r == DrawDecoded(OrDefault(s.GetChecked(vm, KStruct(Pebble.TransformSchema), "Transform")),
                             OrDefault(s.GetChecked(vm, KStruct(Pebble.MaterialSchema), "Material")), textures)
  {
    DrawDecoded(OrDefault(s.GetChecked(vm, KStruct(Pebble.TransformSchema), "Transform")),
                OrDefault(s.GetChecked(vm, KStruct(Pebble.MaterialSchema), "Material")), textures)
  }

  /**
   * The correction changes only the gameobjects whose globals do not
   * decode: where both decode, the two draws are the same.
   */
  lemma DrawCorrectionAgrees(s: Script, vm: Vm, textures: map<string, Asset>)
    requires s.Get(vm, KStruct(Pebble.TransformSchema), "Transform").Success?
    requires s.Get(vm, KStruct(Pebble.MaterialSchema), "Material").Success?
    ensures DrawOneCorrected(s, vm, textures) == DrawOne(s, vm, textures)
  {
  }

  /**
   * With the corrected decoder a gameobject that defines neither global
   * draws with both defaults and no texture.
   */
  lemma DrawMissingGlobalsUseDefaults(s: Script, vm: Vm, textures: map<string, Asset>)
    requires "Transform" !in s.globals && "Material" !in s.globals
    ensures DrawOneCorrected(s, vm, textures) == Success(DrawCmd(None, None, None))
  {
  }

  /** As written, a gameobject without a `Transform` global makes its draw panic in the first `get`. */
  lemma DrawAsWrittenPanicsOnMissingTransform(s: Script, vm: Vm, textures: map<string, Asset>)
    requires "Transform" !in s.globals
    ensures DrawOne(s, vm, textures) == Panic("Value is Nil")
  {
    NilStructPanics(vm.co, Pebble.TransformSchema, s.globals, "Transform");
  }

  /** The position of the first gameobject whose draw does not succeed, or the number of them. */
  function FirstUndrawn(outs: seq<Outcome<DrawCmd>>): (k: nat)
    ensures k <= |outs|
    ensures forall j :: 0 <= j < k ==> outs[j].Success?
    ensures k < |outs| ==> !outs[k].Success?
    decreases |outs|
  {
    if |outs| == 0 || !outs[0].Success? then 0
    else 1 + FirstUndrawn(outs[1..])
  }

  /** Each gameobject's own draw. */
  function DrawEach(frames: seq<Frame>, vm: Vm, textures: map<string, Asset>): (r: seq<Outcome<DrawCmd>>)
    ensures |r| == |frames|
    ensures forall i :: 0 <= i < |frames| ==> r[i] == DrawOne(frames[i].script, vm, textures)
  {
    seq(|frames|, i requires 0 <= i < |frames| => DrawOne(frames[i].script, vm, textures))
  }

  /**
   * `draw` visits every gameobject in order, with no other gate: the
   * commands of the gameobjects before the first whose draw panics, and
   * that panic.
   */
  function DrawAll(frames: seq<Frame>, vm: Vm, textures: map<string, Asset>): (r: (seq<DrawCmd>, Status))
    ensures |r.0| <= |frames|
  {
    var outs := DrawEach(frames, vm, textures);
    var k := FirstUndrawn(outs);
    (seq(k, i requires 0 <= i < k => outs[i].value),
     if k < |frames| then Aborted(Soften(outs[k]).error) else Completed)
  }

  /**
   * A completed frame draws one command per gameobject, each its own; a
   * panicking frame draws the commands of the gameobjects before the first
   * one whose draw panics, and stops with that panic's message.
   */
  lemma DrawAllInOrder(frames: seq<Frame>, vm: Vm, textures: map<string, Asset>)
    ensures var (cmds, status) := DrawAll(frames, vm, textures);
      && (status.Completed? ==>
            |cmds| == |frames| && forall i :: 0 <= i < |frames| ==> DrawOne(frames[i].script, vm, textures) == Success(cmds[i]))
      && (status.Aborted? ==>
            var k := |cmds|;
            && k < |frames|
            && (forall i :: 0 <= i < k ==> DrawOne(frames[i].script, vm, textures) == Success(cmds[i]))
            && DrawOne(frames[k].script, vm, textures).Panic?
            && status.message == DrawOne(frames[k].script, vm, textures).message)
  {
  }

  /**
   * As written, the frame's draw stops at the first gameobject without a
   * `Transform` global, after drawing every gameobject before it.
   */
  lemma DrawStopsAtMissingTransform(frames: seq<Frame>, vm: Vm, textures: map<string, Asset>, k: nat)
    requires k < |frames| && "Transform" !in frames[k].script.globals
    requires forall j :: 0 <= j < k ==> DrawOne(frames[j].script, vm, textures).Success?
    ensures |DrawAll(frames, vm, textures).0| == k
    ensures DrawAll(frames, vm, textures).1 == Aborted("Value is Nil")
  {
    DrawAsWrittenPanicsOnMissingTransform(frames[k].script, vm, textures);
    var outs := DrawEach(frames, vm, textures);
    assert FirstUndrawn(outs) == k;
  }

  /** The frame's draw, given where the first panic is. */
  lemma DrawSettle(outs: seq<Outcome<DrawCmd>>, i: nat, cmds: seq<DrawCmd>)
    requires i <= |outs| && |cmds| == i
    requires forall j :: 0 <= j < i ==> outs[j] == Success(cmds[j])
    requires i < |outs| ==> !outs[i].Success?
    ensures FirstUndrawn(outs) == i
    ensures cmds == seq(i, j requires 0 <= j < i => outs[j].value)
  {
  }

  /** Gathering one more gameobject after a successful prefix. */
  lemma GatherNext(frames: seq<Frame>, i: nat, vm: Vm, load: string -> Result<Image>)
    requires i < |frames|
    requires GatherAll(frames[..i], vm, load).Success?
    ensures GatherAll(frames[..i + 1], vm, load) == GatherOne(GatherAll(frames[..i], vm, load).value, frames[i].script, vm, load)
  {
    assert frames[..i + 1][..i] == frames[..i];
  }

  /**
   * The inner loop of `Loop::new`: every pair of one `files` table, decoded
   * and added to `loader` in `keys` order; the first failure panics.
   */
  method RegisterFiles(loader: AssetsLoader, co: Coercion, files: map<string, Value>, keys: seq<string>, load: string -> Result<Image>) returns (r: Outcome<()>)
    modifies loader
    ensures var g := AddEntries(old(loader.textures), co, files, keys, load);
      && !r.Failure?
      && (r.Success? <==> g.Success?)
      && (r.Success? ==> loader.textures == g.value)
      && (r.Panic? ==> r.message == g.message)
  {
    ghost var start := loader.textures;
    var j := 0;
    while j < |keys|
      invariant 0 <= j <= |keys|
      invariant AddEntries(start, co, files, keys[..j], load) == Success(loader.textures)
    {
      assert keys[..j + 1][..j] == keys[..j];
      var asset := DecodeLuaAsset(co, Lookup(files, keys[j]));
      if asset.Err? {
        AddEntriesStops(start, co, files, keys, j + 1, load);
        return Panic(asset.error);
      }
      var added := loader.Add(asset.value, load);
      if added.Failure? {
        AddEntriesStops(start, co, files, keys, j + 1, load);
        return Panic(added.error);
      }
      if added.Panic? {
        AddEntriesStops(start, co, files, keys, j + 1, load);
        return Panic(added.message);
      }
      j := j + 1;
    }
    assert keys[..j] == keys;
    return Success(());
  }

  /** The body of the outer loop of `Loop::new`: one gameobject's `Assets.files`, registered with `loader`. */
  method RegisterScript(loader: AssetsLoader, s: Script, vm: Vm, load: string -> Result<Image>) returns (r: Outcome<()>)
    modifies loader
    ensures var g := GatherOne(old(loader.textures), s, vm, load);
      && !r.Failure?
      && (r.Success? <==> g.Success?)
      && (r.Success? ==> loader.textures == g.value)
      && (r.Panic? ==> r.message == g.message)
  {
    var files := AssetFiles(s);
    if !files.Success? {
      return Panic(files.message);
    }
    r := RegisterFiles(loader, vm.co, files.value, vm.pairs(files.value), load);
  }

  /** One gameobject's `update`, whose outcome `r` is known in advance. */
  method StepOne(g: Gameobject, ghost r: (Frame, Status), vm: Vm, fs: map<string, string>, delta: real) returns (status: Status)
    requires r == UpdateStep(g.State(), vm, fs, delta)
    modifies g
    ensures g.State() == r.0 && status == r.1
  {
    status := g.Update(vm, fs, delta);
  }

  /**
   * The loop of `update`: each gameobject's own `update` in turn, up to and
   * including the first that panics; `i` is where it stopped.
   */
  method UpdateEach(gos: seq<Gameobject>, ghost before: seq<Frame>, ghost results: seq<(Frame, Status)>,
                    vm: Vm, fs: map<string, string>, delta: real) returns (i: nat, status: Status)
    requires Distinct(gos) && |before| == |gos| && |results| == |gos|
    requires forall j :: 0 <= j < |gos| ==> gos[j].State() == before[j]
    requires forall j :: 0 <= j < |gos| ==> results[j] == UpdateStep(before[j], vm, fs, delta)
    modifies gos
    ensures i <= |gos|
    ensures forall j :: 0 <= j < i ==> results[j].1.Completed?
    ensures i < |gos| ==> results[i].1.Aborted? && status == results[i].1
    ensures i == |gos| ==> status == Completed
    ensures forall j :: 0 <= j < |gos| ==> gos[j].State() == if j <= i then results[j].0 else before[j]
  {
    i := 0;
    while i < |gos|
      invariant 0 <= i <= |gos|
      invariant forall j :: 0 <= j < i ==> results[j].1.Completed?
      invariant forall j :: 0 <= j < i ==> gos[j].State() == results[j].0
      invariant forall j :: i <= j < |gos| ==> gos[j].State() == before[j]
    {
      status := StepOne(gos[i], results[i], vm, fs, delta);
      assert forall j :: 0 <= j < |gos| && j != i ==> gos[j] != gos[i];
      if status.Aborted? {
        return;
      }
      i := i + 1;
    }
    status := Completed;
  }

  // ---------------------------------------------------------------------
  // Loop (src/core.rs:38-67, 99-145)
  // ---------------------------------------------------------------------

  /** `Loop`: the loaded textures and the core it drives (the GUI is not modelled). */
  class Loop {
    var assetsLoader: AssetsLoader
    const core: Core

    /** The struct literal at the end of `Loop::new`. */
    constructor Build(core: Core, assetsLoader: AssetsLoader)
      ensures this.core == core && this.assetsLoader == assetsLoader
    {
      this.core := core;
      this.assetsLoader := assetsLoader;
    }

    /**
     * `Loop::new`: a fresh loader filled from every gameobject's
     * `Assets.files`, or the panic of the first entry that cannot be read,
     * decoded or added.
     */
    static method New(core: Core, vm: Vm, load: string -> Result<Image>) returns (r: Outcome<Loop>)
      ensures var g := GatherAll(old(Snapshot(core.gameobjects)), vm, load);
        && !r.Failure?
        && (r.Success? <==> g.Success?)
        && (r.Panic? ==> r.message == g.message)
        && (r.Success? ==>
              && fresh(r.value) && fresh(r.value.assetsLoader)
              && r.value.core == core
              && r.value.assetsLoader.textures == g.value)
    {
      var loader := new AssetsLoader();
      var gos := core.gameobjects;
      ghost var frames := Snapshot(gos);
      var i := 0;
      while i < |gos|
        invariant 0 <= i <= |gos|
        invariant fresh(loader)
        invariant GatherAll(frames[..i], vm, load) == Success(loader.textures)
      {
        GatherNext(frames, i, vm, load);
        ghost var before := loader.textures;
        var script := gos[i].GetScript();
        assert script == frames[i].script;
        var added := RegisterScript(loader, script, vm, load);
        if added.Panic? {
          GatherAllStops(frames, i + 1, vm, load);
          assert GatherAll(frames, vm, load) == GatherOne(before, script, vm, load);
          return Panic(added.message);
        }
        i := i + 1;
      }
      assert frames[..i] == frames;
      var game := new Loop.Build(core, loader);
      return Success(game);
    }

    /** `EventHandler::update` for `Loop`: every gameobject's `update`, in order. */
    method Update(vm: Vm, fs: map<string, string>, delta: real) returns (status: Status)
      requires Distinct(core.gameobjects)
      modifies core.gameobjects
      ensures (Snapshot(core.gameobjects), status) == UpdateAll(old(Snapshot(core.gameobjects)), vm, fs, delta)
    {
      var gos := core.gameobjects;
      ghost var before := Snapshot(gos);
      ghost var results := StepResults(before, vm, fs, delta);
      var i;
      i, status := UpdateEach(gos, before, results, vm, fs, delta);
      SettleAt(before, results, i, Snapshot(gos));
    }

    /** `EventHandler::draw` for `Loop`: the commands of every gameobject, in order. */
    method Draw(vm: Vm) returns (cmds: seq<DrawCmd>, status: Status)
      ensures (cmds, status) == DrawAll(Snapshot(core.gameobjects), vm, assetsLoader.textures)
    {
      var gos := core.gameobjects;
      ghost var frames := Snapshot(gos);
      ghost var outs := DrawEach(frames, vm, assetsLoader.textures);
      cmds := [];
      var i := 0;
      while i < |gos|
        invariant 0 <= i <= |gos| && |cmds| == i
        invariant forall j :: 0 <= j < i ==> outs[j] == Success(cmds[j])
      {
        var script := gos[i].GetScript();
        assert script == frames[i].script;
        var drawn := DrawOne(script, vm, assetsLoader.textures);
        assert drawn == outs[i];
        if !drawn.Success? {
          DrawSettle(outs, i, cmds);
          return cmds, Aborted(Soften(drawn).error);
        }
        cmds := cmds + [drawn.value];
        i := i + 1;
      }
      DrawSettle(outs, i, cmds);
      return cmds, Completed;
    }
  }
}

=== FILE: gameobject.dfy ===
/**
 * The per-object hot-reload step of `src/gameobject.rs`.
 *
 * A `Gameobject` owns one `Script` and the receiving end of a channel that
 * a file watcher fills with notifications.  Each `update` calls the script's
 * global `Update`, then takes at most one notification off the channel;
 * only a "closed after write" event replaces the script with a fresh one
 * read from the same file and runs it.
 */
module GameObject {
  import opened Wrappers
  import opened LuaBinding

  /** notify's `AccessMode`. */
  datatype AccessMode = AnyMode | Execute | ReadMode | WriteMode | OtherMode

  /** notify's `AccessKind`. */
  datatype AccessKind = AnyAccess | Read | Open(openMode: AccessMode) | Close(closeMode: AccessMode) | OtherAccess

  /** notify's `EventKind`; the sub-kinds of create, modify and remove are not distinguished. */
  datatype EventKind = AnyEvent | Access(access: AccessKind) | Create | Modify | Remove | OtherEvent

  /** One item of the channel: an event, or an error the watcher reported. */
  datatype Notification = Event(kind: EventKind) | WatchError(message: string)

  /** The one event kind that reloads the script. */
  const ReloadTrigger := Access(Close(WriteMode))

  /** What `update` reads and changes: the name, the script and the undelivered notifications. */
  datatype Frame = Frame(name: string, script: Script, receiver: seq<Notification>)

  /**
   * `Gameobject::new` without the allocation: read the file, run it, then
   * install the watcher; the first of these to fail is the error.
   */
  function Load(name: string, fs: map<string, string>, vm: Vm, watcherError: Option<string>): (r: Result<Script>)
    ensures r.Ok? <==> name in fs && vm.exec(fs[name], map[]).result.Ok? && watcherError.None?
    ensures r.Ok? ==> r.value == Script.New(name, fs[name]).Run(vm).0
  {
    match Script.FromFile(fs, name)
    case Err(e) => Err(e)
    case Ok(script) =>
      var (ran, res) := script.Run(vm);
      if res.Err? then Err(res.error)
      else if watcherError.Some? then Err(watcherError.value)
      else Ok(ran)
  }

  /** The script is run before the watcher is installed: when both fail, the script's error is the one reported. */
  lemma LoadRunsBeforeWatching(name: string, fs: map<string, string>, vm: Vm, watcherError: Option<string>)
    requires name in fs && vm.exec(fs[name], map[]).result.Err?
    ensures Load(name, fs, vm, watcherError) == Err(vm.exec(fs[name], map[]).result.error)
  {
  }

  /**
   * One `update`: call `Update(delta)` (a call error is ignored, a missing
   * `Update` panics), then take at most one notification; a watcher error
   * panics, a close-after-write event reloads the script from `name` (a
   * read or run failure panics), anything else is dropped.
   */
  function UpdateStep(f: Frame, vm: Vm, fs: map<string, string>, delta: real): (r: (Frame, Status))
    ensures r.0.name == f.name
    ensures r.1.Aborted? <==>
      || f.script.GetFunction("Update").Err?
      || (|f.receiver| > 0 && f.receiver[0].WatchError?)
      || (|f.receiver| > 0 && f.receiver[0] == Event(ReloadTrigger)
          && (Script.FromFile(fs, f.name).Err? || Script.FromFile(fs, f.name).value.Run(vm).1.Err?))
  {
    match f.script.GetFunction("Update")
    case Err(e) => (f, Aborted(e))
    case Ok(update) =>
      var called := f.script.Call(vm, update, [Number(delta)]).0;
      if |f.receiver| == 0 then (f.(script := called), Completed)
      else
        var rest := f.receiver[1..];
        match f.receiver[0]
        case WatchError(e) => (Frame(f.name, called, rest), Aborted(e))
        case Event(kind) =>
          if kind != ReloadTrigger then (Frame(f.name, called, rest), Completed)
          else
            match Script.FromFile(fs, f.name)
            case Err(e) => (Frame(f.name, called, rest), Aborted(e))
            case Ok(reread) =>
              var (ran, res) := reread.Run(vm);
              (Frame(f.name, ran, rest), if res.Ok? then Completed else Aborted(res.error))
  }

  /** The script as it is after `Update(delta)` has been called on it. */
  function AfterUpdateCall(f: Frame, vm: Vm, delta: real): Script
    requires f.script.GetFunction("Update").Ok?
  {
    f.script.Call(vm, f.script.GetFunction("Update").value, [Number(delta)]).0
  }

  /**
   * The receiver loses at most its first notification, and loses it
   * whenever `Update` exists; the name never changes.
   */
  lemma StepTakesAtMostOne(f: Frame, vm: Vm, fs: map<string, string>, delta: real)
    ensures var (g, _) := UpdateStep(f, vm, fs, delta);
      && g.name == f.name
      && (g.receiver == f.receiver || (|f.receiver| > 0 && g.receiver == f.receiver[1..]))
      && (f.script.GetFunction("Update").Ok? && |f.receiver| > 0 ==> g.receiver == f.receiver[1..])
  {
  }

  /** A missing `Update` global panics before anything changes. */
  lemma MissingUpdateAborts(f: Frame, vm: Vm, fs: map<string, string>, delta: real)
    requires f.script.GetFunction("Update").Err?
    ensures UpdateStep(f, vm, fs, delta) == (f, Aborted(f.script.GetFunction("Update").error))
  {
  }

  /**
   * With nothing queued the step completes whatever the `Update` call
   * returned, and the script keeps its name and content.
   */
  lemma EmptyQueueKeepsScript(f: Frame, vm: Vm, fs: map<string, string>, delta: real)
    requires f.script.GetFunction("Update").Ok? && f.receiver == []
    ensures var (g, st) := UpdateStep(f, vm, fs, delta);
      && st == Completed
      && g.script == AfterUpdateCall(f, vm, delta)
      && g.script.name == f.script.name && g.script.content == f.script.content
  {
  }

  /** Any event other than close-after-write is consumed without effect. */
  lemma OtherEventsIgnored(f: Frame, vm: Vm, fs: map<string, string>, delta: real)
    requires f.script.GetFunction("Update").Ok?
    requires |f.receiver| > 0 && f.receiver[0].Event? && f.receiver[0].kind != ReloadTrigger
    ensures UpdateStep(f, vm, fs, delta) == (Frame(f.name, AfterUpdateCall(f, vm, delta), f.receiver[1..]), Completed)
  {
  }

  /** A watcher error delivered on the channel panics. */
  lemma WatchErrorAborts(f: Frame, vm: Vm, fs: map<string, string>, delta: real)
    requires f.script.GetFunction("Update").Ok?
    requires |f.receiver| > 0 && f.receiver[0].WatchError?
    ensures UpdateStep(f, vm, fs, delta).1 == Aborted(f.receiver[0].message)
  {
  }

  /**
   * A close-after-write event replaces the script with a fresh one read
   * from the same name and run from an empty interpreter: nothing of the old
   * interpreter survives, and the new script's `Update` is not called in
   * this step.  An unreadable file or a failing run panics.
   */
  lemma CloseWriteReloads(f: Frame, vm: Vm, fs: map<string, string>, delta: real)
    requires f.script.GetFunction("Update").Ok?
    requires |f.receiver| > 0 && f.receiver[0] == Event(ReloadTrigger)
    ensures var (g, st) := UpdateStep(f, vm, fs, delta);
      && (f.name !in fs ==> st.Aborted?)
      && (f.name in fs ==>
            && g.script == Script(f.name, fs[f.name], vm.exec(fs[f.name], map[]).globals)
            && (st.Completed? <==> vm.exec(fs[f.name], map[]).result.Ok?))
  {
  }

  /** A frame whose script carries the object's own name keeps doing so. */
  lemma StepKeepsScriptName(f: Frame, vm: Vm, fs: map<string, string>, delta: real)
    requires f.script.name == f.name
    ensures UpdateStep(f, vm, fs, delta).0.script.name == f.name
  {
  }

  /**
   * `Gameobject`: a script, the name it was loaded from, and the channel's
   * receiving end as the queue of notifications not yet taken.
   */
  class Gameobject {
    var script: Script
    const name: string
    var receiver: seq<Notification>

    ghost predicate Valid()
      reads this
    {
      script.name == name
    }

    function State(): Frame
      reads this
    {
      Frame(name, script, receiver)
    }

    /** The struct literal at the end of `Gameobject::new`. */
    constructor Build(name: string, script: Script)
      ensures this.name == name && this.script == script && receiver == []
    {
      this.name := name;
      this.script := script;
      receiver := [];
    }

    /** `Gameobject::new`: an error, and no object, when the file is unreadable, the run fails or the watcher cannot be set up. */
    static method New(name: string, fs: map<string, string>, vm: Vm, watcherError: Option<string>) returns (r: Result<Gameobject>)
      ensures r.Ok? <==> Load(name, fs, vm, watcherError).Ok?
      ensures r.Err? ==> r.error == Load(name, fs, vm, watcherError).error
      ensures r.Ok? ==>
        && fresh(r.value)
        && r.value.State() == Frame(name, Load(name, fs, vm, watcherError).value, [])
        && r.value.Valid()
    {
      var script := Script.FromFile(fs, name);
      if script.Err? {
        return Err(script.error);
      }
      var (ran, res) := script.value.Run(vm);
      if res.Err? {
        return Err(res.error);
      }
      if watcherError.Some? {
        return Err(watcherError.value);
      }
      var go := new Gameobject.Build(name, ran);
      return Ok(go);
    }

    function GetScript(): Script
      reads this
    {
      script
    }

    /** `Gameobject::update`. */
    method Update(vm: Vm, fs: map<string, string>, delta: real) returns (status: Status)
      modifies this
      ensures (State(), status) == UpdateStep(old(State()), vm, fs, delta)
      ensures old(Valid()) ==> Valid()
    {
      var update := script.GetFunction("Update");
      if update.Err? {
        return Aborted(update.error);
      }
      var (called, _) := script.Call(vm, update.value, [Number(delta)]);
      script := called;

      if |receiver| > 0 {
        var notification := receiver[0];
        receiver := receiver[1..];
        if notification.WatchError? {
          return Aborted(notification.message);
        }
        if notification.kind == ReloadTrigger {
          var reread := Script.FromFile(fs, name);
          if reread.Err? {
            return Aborted(reread.error);
          }
          script := reread.value;
          var (ran, res) := script.Run(vm);
          script := ran;
          if res.Err? {
            return Aborted(res.error);
          }
        }
      }
      return Completed;
    }
  }
}

=== FILE: lua.dfy ===
/**
 * The typed binding layer of `src/lua.rs`: Lua values, the struct decoders
 * that the `user_data!` macro generates, `LuaArray`, and the `Script` record
 * that owns one interpreter.
 *
 * The interpreter (mlua) is foreign: it is an oracle `Vm` whose total
 * functions say what executing a chunk or calling a function does to the
 * global table, in which order `pairs` visits a table's keys, and how
 * scalars are coerced.  Everything the Rust code decides on top of it is
 * modelled here.
 */
module LuaBinding {
  import opened Wrappers

  /** Host objects handed to scripts as userdata. */
  datatype HostObject = LuaLog(name: string)

  /** A Lua value; tables are keyed by strings. */
  datatype Value =
    | Nil
    | Bool(b: bool)
    | Int(i: int)
    | Number(x: real)
    | Str(s: string)
    | Table(entries: map<string, Value>)
    | Error(message: string)
    | Func(id: nat)
    | UserData(obj: HostObject)

  type Globals = map<string, Value>

  /** `table.get(key)` reads a key the table does not hold as nil. */
  function Lookup(t: map<string, Value>, key: string): (v: Value)
    ensures key in t ==> v == t[key]
    ensures key !in t ==> v == Nil
  {
    if key in t then t[key] else Nil
  }

  /** mlua's coercions of a value to a Rust string, float or integer (None: not convertible). */
  datatype Coercion = Coercion(
    toText: Value -> Option<string>,
    toNumber: Value -> Option<real>,
    toInteger: Value -> Option<int>)

  /** What running Lua code does: the new global table and the values returned, or the error raised. */
  datatype Effect = Effect(globals: Globals, result: Result<seq<Value>>)

  /** The interpreter as an oracle. */
  datatype Vm = Vm(
    exec: (string, Globals) -> Effect,
    call: (nat, seq<Value>, Globals) -> Effect,
    pairs: map<string, Value> -> seq<string>,
    co: Coercion)

  /** The Rust type a field is declared with. */
  datatype Kind =
    | KText                    // String
    | KNumber                  // f32
    | KInteger                 // i32
    | KOptional(inner: Kind)   // Option<T>
    | KTable                   // mlua::Table, passed through opaque
    | KFunction                // mlua::Function
    | KStruct(schema: Schema)  // another user_data! struct

  datatype Field = Field(name: string, kind: Kind)

  /** A `user_data!` struct: its fields in declaration order. */
  datatype Schema = Schema(fields: seq<Field>)

  /** A decoded Rust value. */
  datatype Data =
    | DText(text: string)
    | DNumber(number: real)
    | DInteger(integer: int)
    | DNone
    | DSome(inner: Data)
    | DTable(table: map<string, Value>)
    | DFunction(id: nat)
    | DStruct(values: seq<Data>)

  function TypeName(v: Value): string
  {
    match v
    case Nil => "nil"
    case Bool(_) => "boolean"
    case Int(_) => "integer"
    case Number(_) => "number"
    case Str(_) => "string"
    case Table(_) => "table"
    case Error(_) => "error"
    case Func(_) => "function"
    case UserData(_) => "userdata"
  }

  function ConversionError(v: Value, target: string): string
  {
    "error converting Lua " + TypeName(v) + " to " + target
  }

  predicate IsScalar(k: Kind)
  {
    !k.KOptional? && !k.KStruct?
  }

  /** A kind read through a generated `from_lua` (a struct, possibly optional), which unwraps. */
  predicate ReachesFromLua(k: Kind)
  {
    k.KStruct? || (k.KOptional? && ReachesFromLua(k.inner))
  }

  /** mlua's own conversions for the non-struct, non-optional kinds; they return errors, never panic. */
  function ConvertScalar(co: Coercion, k: Kind, v: Value): (r: Result<Data>)
    requires IsScalar(k)
    ensures k.KTable? ==> (r.Ok? <==> v.Table?)
    ensures k.KFunction? ==> (r.Ok? <==> v.Func?)
    ensures k.KText? ==> (r.Ok? <==> co.toText(v).Some?)
  {
    match k
    case KText =>
      (match co.toText(v) case Some(s) => Ok(DText(s)) case None => Err(ConversionError(v, "String")))
    case KNumber =>
      (match co.toNumber(v) case Some(x) => Ok(DNumber(x)) case None => Err(ConversionError(v, "f32")))
    case KInteger =>
      (match co.toInteger(v) case Some(n) => Ok(DInteger(n)) case None => Err(ConversionError(v, "i32")))
    case KTable =>
      (match v case Table(t) => Ok(DTable(t)) case _ => Err(ConversionError(v, "table")))
    case KFunction =>
      (match v case Func(f) => Ok(DFunction(f)) case _ => Err(ConversionError(v, "function")))
  }

  function FromResult<T>(r: Result<T>): Outcome<T>
  {
    match r
    case Ok(x) => Success(x)
    case Err(e) => Failure(e)
  }

  // ---------------------------------------------------------------------
  // The decoders as the macro writes them (src/lua.rs:26-49).
  // ---------------------------------------------------------------------

  /** `T::from_lua(v)` for a field of kind `k`. */
  function Decode(co: Coercion, k: Kind, v: Value): (r: Outcome<Data>)
    decreases k, 0
    ensures IsScalar(k) ==> !r.Panic?
    ensures !ReachesFromLua(k) ==> !r.Panic?
    ensures k.KStruct? ==> !r.Failure?
    ensures k.KOptional? && v.Nil? ==> r == Success(DNone)
  {
    match k
    case KOptional(inner) =>
      if v.Nil? then Success(DNone)
      else (match Decode(co, inner, v)
            case Success(d) => Success(DSome(d))
            case Failure(e) => Failure(e)
            case Panic(m) => Panic(m))
    case KStruct(schema) => FromLua(co, schema, v)
    case _ => FromResult(ConvertScalar(co, k, v))
  }

  /**
   * The generated `from_lua`: the value must be a table and every field is
   * read with `unwrap()`, so it either succeeds or panics.
   */
  function FromLua(co: Coercion, schema: Schema, v: Value): (r: Outcome<Data>)
    decreases schema, |schema.fields| + 2
    ensures !r.Failure?
    ensures v.Error? ==> r == Panic(v.message)
    ensures v.Nil? ==> r == Panic("Value is Nil")
    ensures !v.Table? && !v.Error? && !v.Nil? ==> r == Panic("Only table are supported")
    ensures r.Success? <==> v.Table? && FromLuaTable(co, schema, v.entries).Success?
  {
    match v
    case Table(t) => Unwrap(FromLuaTable(co, schema, t))
    case Error(e) => Panic(e)
    case Nil => Panic("Value is Nil")
    case _ => Panic("Only table are supported")
  }

  /** The generated `from_lua_table`: every field is read with `?`. */
  function FromLuaTable(co: Coercion, schema: Schema, t: map<string, Value>): (r: Outcome<Data>)
    decreases schema, |schema.fields| + 1
    ensures r.Success? ==> r.value.DStruct? && |r.value.values| == |schema.fields|
    ensures r.Panic? ==> exists j :: 0 <= j < |schema.fields| && ReachesFromLua(schema.fields[j].kind)
  {
    match ReadFields(co, schema, 0, t)
    case Success(ds) => Success(DStruct(ds))
    case Failure(e) => Failure(e)
    case Panic(m) => Panic(m)
  }

  /** Reads fields `i..` of the schema, each under the key that is its own name, stopping at the first failure. */
  function ReadFields(co: Coercion, schema: Schema, i: nat, t: map<string, Value>): (r: Outcome<seq<Data>>)
    requires i <= |schema.fields|
    decreases schema, |schema.fields| - i
    ensures r.Success? ==> |r.value| == |schema.fields| - i
    ensures r.Panic? ==> exists j :: i <= j < |schema.fields| && ReachesFromLua(schema.fields[j].kind)
  {
    if i == |schema.fields| then Success([])
    else
      var f := schema.fields[i];
      assert f in schema.fields;
      match Decode(co, f.kind, Lookup(t, f.name))
      case Success(d) =>
        (match ReadFields(co, schema, i + 1, t)
         case Success(ds) => Success([d] + ds)
         case Failure(e) => Failure(e)
         case Panic(m) => Panic(m))
      case Failure(e) => Failure(e)
      case Panic(m) => Panic(m)
  }

  /** Field `j` of the schema, read from `t` under its own name. */
  function ReadField(co: Coercion, schema: Schema, j: nat, t: map<string, Value>): Outcome<Data>
    requires j < |schema.fields|
  {
    Decode(co, schema.fields[j].kind, Lookup(t, schema.fields[j].name))
  }

  /**
   * `from_lua_table` succeeds exactly when every declared field can be read,
   * and then field `j` of the result is what the table holds under that
   * field's own name; otherwise it gives the outcome of the first field, in
   * declaration order, that cannot be read.
   */
  lemma {:induction false} ReadFieldsStrict(co: Coercion, schema: Schema, i: nat, t: map<string, Value>)
    requires i <= |schema.fields|
    ensures var r := ReadFields(co, schema, i, t);
      && (r.Success? <==> forall j :: i <= j < |schema.fields| ==> ReadField(co, schema, j, t).Success?)
      && (r.Success? ==>
            && |r.value| == |schema.fields| - i
            && forall j :: i <= j < |schema.fields| ==> ReadField(co, schema, j, t) == Success(r.value[j - i]))
      && (!r.Success? ==>
            exists j ::
              && i <= j < |schema.fields|
              && (forall l :: i <= l < j ==> ReadField(co, schema, l, t).Success?)
              && !ReadField(co, schema, j, t).Success?
              && (r.Failure? <==> ReadField(co, schema, j, t).Failure?)
              && (r.Failure? ==> r.error == ReadField(co, schema, j, t).error)
              && (r.Panic? ==> r.message == ReadField(co, schema, j, t).message))
  {
    ReadFieldsSucceed(co, schema, i, t);
    if !ReadFields(co, schema, i, t).Success? {
      ReadFieldsFirstFailure(co, schema, i, t);
    }
  }

  lemma {:induction false} ReadFieldsSucceed(co: Coercion, schema: Schema, i: nat, t: map<string, Value>)
    requires i <= |schema.fields|
    ensures var r := ReadFields(co, schema, i, t);
      && (r.Success? <==> forall j :: i <= j < |schema.fields| ==> ReadField(co, schema, j, t).Success?)
      && (r.Success? ==> forall j :: i <= j < |schema.fields| ==> ReadField(co, schema, j, t) == Success(r.value[j - i]))
    decreases |schema.fields| - i
  {
    if i < |schema.fields| {
      ReadFieldsSucceed(co, schema, i + 1, t);
      var f := ReadField(co, schema, i, t);
      var rest := ReadFields(co, schema, i + 1, t);
      if f.Success? && rest.Success? {
        assert ReadFields(co, schema, i, t) == Success([f.value] + rest.value);
      }
    }
  }

  lemma {:induction false} ReadFieldsFirstFailure(co: Coercion, schema: Schema, i: nat, t: map<string, Value>)
    requires i <= |schema.fields|
    requires !ReadFields(co, schema, i, t).Success?
    ensures var r := ReadFields(co, schema, i, t);
      exists j ::
        && i <= j < |schema.fields|
        && (forall l :: i <= l < j ==> ReadField(co, schema, l, t).Success?)
        && !ReadField(co, schema, j, t).Success?
        && (r.Failure? <==> ReadField(co, schema, j, t).Failure?)
        && (r.Failure? ==> r.error == ReadField(co, schema, j, t).error)
        && (r.Panic? ==> r.message == ReadField(co, schema, j, t).message)
    decreases |schema.fields| - i
  {
    var r := ReadFields(co, schema, i, t);
    var f := ReadField(co, schema, i, t);
    if !f.Success? {
      assert (r.Failure? <==> f.Failure?) && (r.Failure? ==> r.error == f.error) && (r.Panic? ==> r.message == f.message);
    } else {
      var rest := ReadFields(co, schema, i + 1, t);
      ReadFieldsFirstFailure(co, schema, i + 1, t);
      assert (r.Failure? <==> rest.Failure?) && (r.Failure? ==> r.error == rest.error) && (r.Panic? ==> r.message == rest.message);
    }
  }

  /**
   * Finding, as written: the generated `from_lua` panics on nil instead of
   * returning an error, so a caller's `unwrap_or_default()` on a missing
   * global never gets the chance to fall back to the default.
   */
  lemma NilStructPanics(co: Coercion, schema: Schema, globals: Globals, key: string)
    requires key !in globals
    ensures Decode(co, KStruct(schema), Lookup(globals, key)) == Panic("Value is Nil")
  {
  }

  // ---------------------------------------------------------------------
  // The decoders as evidently intended: errors are returned, not unwrapped.
  // ---------------------------------------------------------------------

  function DecodeChecked(co: Coercion, k: Kind, v: Value): Result<Data>
    decreases k, 0
  {
    match k
    case KOptional(inner) =>
      if v.Nil? then Ok(DNone)
      else (match DecodeChecked(co, inner, v)
            case Ok(d) => Ok(DSome(d))
            case Err(e) => Err(e))
    case KStruct(schema) => FromLuaChecked(co, schema, v)
    case _ => ConvertScalar(co, k, v)
  }

  /** `from_lua` propagating with `?` where the macro unwraps. */
  function FromLuaChecked(co: Coercion, schema: Schema, v: Value): (r: Result<Data>)
    decreases schema, |schema.fields| + 2
    ensures v.Error? ==> r == Err(v.message)
    ensures v.Nil? ==> r == Err("Value is Nil")
    ensures !v.Table? && !v.Error? && !v.Nil? ==> r == Err("Only table are supported")
  {
    match v
    case Table(t) =>
      (match ReadFieldsChecked(co, schema, 0, t)
       case Ok(ds) => Ok(DStruct(ds))
       case Err(e) => Err(e))
    case Error(e) => Err(e)
    case Nil => Err("Value is Nil")
    case _ => Err("Only table are supported")
  }

  function ReadFieldsChecked(co: Coercion, schema: Schema, i: nat, t: map<string, Value>): Result<seq<Data>>
    requires i <= |schema.fields|
    decreases schema, |schema.fields| - i
  {
    if i == |schema.fields| then Ok([])
    else
      var f := schema.fields[i];
      assert f in schema.fields;
      match DecodeChecked(co, f.kind, Lookup(t, f.name))
      case Ok(d) =>
        (match ReadFieldsChecked(co, schema, i + 1, t)
         case Ok(ds) => Ok([d] + ds)
         case Err(e) => Err(e))
      case Err(e) => Err(e)
  }

  /** A panic reported as an error instead. */
  function Soften<T>(r: Outcome<T>): Result<T>
  {
    match r
    case Success(x) => Ok(x)
    case Failure(e) => Err(e)
    case Panic(m) => Err(m)
  }

  /**
   * The correction changes nothing but the way a failure is reported: where
   * the macro's decoder succeeds the corrected one gives the same value, and
   * where it panics the corrected one returns that message as an error.
   */
  lemma {:induction false} CheckedOnlySoftens(co: Coercion, k: Kind, v: Value)
    ensures DecodeChecked(co, k, v) == Soften(Decode(co, k, v))
    decreases k, 0
  {
    match k
    case KOptional(inner) => CheckedOnlySoftens(co, inner, v);
    case KStruct(schema) => FromLuaCheckedOnlySoftens(co, schema, v);
    case _ =>
  }

  lemma {:induction false} FromLuaCheckedOnlySoftens(co: Coercion, schema: Schema, v: Value)
    ensures FromLuaChecked(co, schema, v) == Soften(FromLua(co, schema, v))
    decreases schema, |schema.fields| + 2
  {
    if v.Table? {
      ReadFieldsCheckedOnlySoftens(co, schema, 0, v.entries);
    }
  }

  lemma {:induction false} ReadFieldsCheckedOnlySoftens(co: Coercion, schema: Schema, i: nat, t: map<string, Value>)
    requires i <= |schema.fields|
    ensures ReadFieldsChecked(co, schema, i, t) == Soften(ReadFields(co, schema, i, t))
    decreases schema, |schema.fields| - i
  {
    if i < |schema.fields| {
      var f := schema.fields[i];
      assert f in schema.fields;
      CheckedOnlySoftens(co, f.kind, Lookup(t, f.name));
      ReadFieldsCheckedOnlySoftens(co, schema, i + 1, t);
    }
  }

  /** A decoded value has the shape its declared kind gives it. */
  predicate Conforms(d: Data, k: Kind)
    decreases k
  {
    match k
    case KText => d.DText?
    case KNumber => d.DNumber?
    case KInteger => d.DInteger?
    case KOptional(inner) => d.DNone? || (d.DSome? && Conforms(d.inner, inner))
    case KTable => d.DTable?
    case KFunction => d.DFunction?
    case KStruct(schema) =>
      d.DStruct? && |d.values| == |schema.fields|
      && forall j :: 0 <= j < |schema.fields| ==> FieldConforms(d.values[j], schema, j)
  }

  predicate FieldConforms(d: Data, schema: Schema, j: nat)
    requires j < |schema.fields|
    decreases schema, 0
  {
    assert schema.fields[j] in schema.fields;
    Conforms(d, schema.fields[j].kind)
  }

  /** Every successful (corrected) decode has the declared shape. */
  lemma {:induction false} CheckedConforms(co: Coercion, k: Kind, v: Value)
    ensures DecodeChecked(co, k, v).Ok? ==> Conforms(DecodeChecked(co, k, v).value, k)
    decreases k, 0
  {
    match k
    case KOptional(inner) => CheckedConforms(co, inner, v);
    case KStruct(schema) =>
      if v.Table? {
        ReadFieldsConform(co, schema, 0, v.entries);
        var r := ReadFieldsChecked(co, schema, 0, v.entries);
        if r.Ok? {
          assert forall j :: 0 <= j < |schema.fields| ==> FieldConforms(r.value[j], schema, 0 + j);
        }
      }
    case _ =>
  }

  lemma {:induction false} ReadFieldsConform(co: Coercion, schema: Schema, i: nat, t: map<string, Value>)
    requires i <= |schema.fields|
    ensures var r := ReadFieldsChecked(co, schema, i, t);
      r.Ok? ==>
        && |r.value| == |schema.fields| - i
        && forall n :: 0 <= n < |r.value| ==> FieldConforms(r.value[n], schema, i + n)
    decreases schema, |schema.fields| - i
  {
    if i < |schema.fields| {
      var f := schema.fields[i];
      assert f in schema.fields;
      CheckedConforms(co, f.kind, Lookup(t, f.name));
      ReadFieldsConform(co, schema, i + 1, t);
    }
  }

  // ---------------------------------------------------------------------
  // LuaArray (src/lua.rs:53-79)
  // ---------------------------------------------------------------------

  /** A `{count, data}` table; `count` is kept but never checked against `data`. */
  datatype LuaArray = LuaArray(count: int, data: map<string, Value>)

  /** `LuaArray::from_lua`. */
  function ArrayFromLua(co: Coercion, v: Value): (r: Result<LuaArray>)
    ensures v.Error? ==> r == Err(v.message)
    ensures !v.Table? && !v.Error? ==> r == Err("Not a array")
    ensures v.Table? ==>
      (r.Ok? <==> co.toInteger(Lookup(v.entries, "count")).Some? && Lookup(v.entries, "data").Table?)
    ensures r.Ok? ==>
      && v.Table?
      && r.value.count == co.toInteger(Lookup(v.entries, "count")).value
      && r.value.data == Lookup(v.entries, "data").entries
    ensures v.Table? && co.toInteger(Lookup(v.entries, "count")).None? ==>
      r == Err(ConversionError(Lookup(v.entries, "count"), "i32"))
  {
    match v
    case Table(t) =>
      (match ConvertScalar(co, KInteger, Lookup(t, "count"))
       case Err(e) => Err(e)
       case Ok(count) =>
         match ConvertScalar(co, KTable, Lookup(t, "data"))
         case Err(e) => Err(e)
         case Ok(data) => Ok(LuaArray(count.integer, data.table)))
    case Error(e) => Err(e)
    case _ => Err("Not a array")
  }

  /** `keys` visits every key of `t` once. */
  predicate IsEnumeration(keys: seq<string>, t: map<string, Value>)
  {
    (forall i, j :: 0 <= i < j < |keys| ==> keys[i] != keys[j])
    && (forall i :: 0 <= i < |keys| ==> keys[i] in t)
    && (forall k :: k in t ==> k in keys)
  }

  /**
   * `LuaArray::iter`: the pairs of `data` in the interpreter's `pairs`
   * order, each value decoded on its own; `count` plays no part.
   */
  function Iter(vm: Vm, arr: LuaArray, elem: Kind): (r: seq<(string, Outcome<Data>)>)
    ensures |r| == |vm.pairs(arr.data)|
    ensures forall i :: 0 <= i < |r| ==> r[i].0 == vm.pairs(arr.data)[i]
  {
    var keys := vm.pairs(arr.data);
    seq(|keys|, i requires 0 <= i < |keys| => (keys[i], Decode(vm.co, elem, Lookup(arr.data, keys[i]))))
  }

  /**
   * Whatever `count` says, the iteration yields exactly one pair per entry
   * of `data`, and a failing entry fails on its own.
   */
  lemma IterIgnoresCount(vm: Vm, arr: LuaArray, elem: Kind)
    requires IsEnumeration(vm.pairs(arr.data), arr.data)
    ensures var r := Iter(vm, arr, elem);
      && |r| == |arr.data|
      && (forall k :: k in arr.data <==> exists i :: 0 <= i < |r| && r[i].0 == k)
      && (forall i :: 0 <= i < |r| ==> r[i].1 == Decode(vm.co, elem, arr.data[r[i].0]))
      && r == Iter(vm, arr.(count := 0), elem)
  {
    var keys := vm.pairs(arr.data);
    var r := Iter(vm, arr, elem);
    assert |r| == |arr.data| by {
      DistinctSeqSize(keys);
      assert (set k | k in keys) == arr.data.Keys;
    }
    forall k | k in arr.data
      ensures exists i :: 0 <= i < |r| && r[i].0 == k
    {
      var i :| 0 <= i < |keys| && keys[i] == k;
      assert r[i].0 == k;
    }
    forall i | 0 <= i < |r|
      ensures r[i].1 == Decode(vm.co, elem, arr.data[r[i].0])
    {
      assert keys[i] in arr.data;
    }
  }

  lemma {:induction false} DistinctSeqSize(keys: seq<string>)
    requires forall i, j :: 0 <= i < j < |keys| ==> keys[i] != keys[j]
    ensures |set k | k in keys| == |keys|
  {
    if |keys| > 0 {
      var rest := keys[1..];
      DistinctSeqSize(rest);
      assert (set k | k in keys) == (set k | k in rest) + {keys[0]};
      assert keys[0] !in rest;
    }
  }

  // ---------------------------------------------------------------------
  // Script (src/lua.rs:81-127)
  // ---------------------------------------------------------------------

  /**
   * A script handle: its name, its source text and the global table of the
   * interpreter it exclusively owns.
   */
  datatype Script = Script(name: string, content: string, globals: Globals)
  {
    /** `Script::new`: name and content stored verbatim, a fresh interpreter with nothing defined yet. */
    static function New(name: string, content: string): (s: Script)
      ensures s.GetName() == name && s.GetContent() == content
      ensures s.globals == map[]
    {
      Script(name, content, map[])
    }

    /** `Script::from_file`: fails exactly when the file cannot be read; the script is not run. */
    static function FromFile(fs: map<string, string>, filename: string): (r: Result<Script>)
      ensures r.Ok? <==> filename in fs
      ensures r.Ok? ==> r.value.name == filename && r.value.content == fs[filename] && r.value.globals == map[]
    {
      if filename in fs then Ok(New(filename, fs[filename])) else Err("No such file or directory")
    }

    function GetName(): string { name }

    function GetContent(): string { content }

    /**
     * `Script::run`: executes the content against this interpreter; name and
     * content stay as they were, the global table becomes what the chunk left.
     */
    function Run(vm: Vm): (r: (Script, Result<()>))
      ensures r.0.name == name && r.0.content == content
      ensures r.0.globals == vm.exec(content, globals).globals
      ensures r.1.Ok? <==> vm.exec(content, globals).result.Ok?
    {
      var eff := vm.exec(content, globals);
      (this.(globals := eff.globals), if eff.result.Ok? then Ok(()) else Err(eff.result.error))
    }

    /** `Script::get`: the global under `key`, decoded as the macro's decoders do. */
    function Get(vm: Vm, k: Kind, key: string): (r: Outcome<Data>)
      ensures key !in globals && k.KStruct? ==> r == Panic("Value is Nil")
      ensures key in globals ==> r == Decode(vm.co, k, globals[key])
      ensures r.Success? ==> Conforms(r.value, k)
    {
      CheckedOnlySoftens(vm.co, k, Lookup(globals, key));
      CheckedConforms(vm.co, k, Lookup(globals, key));
      Decode(vm.co, k, Lookup(globals, key))
    }

    /** `Script::get` with the corrected decoders. */
    function GetChecked(vm: Vm, k: Kind, key: string): (r: Result<Data>)
      ensures r == Soften(Get(vm, k, key))
      ensures r.Ok? ==> Conforms(r.value, k)
    {
      CheckedOnlySoftens(vm.co, k, Lookup(globals, key));
      CheckedConforms(vm.co, k, Lookup(globals, key));
      DecodeChecked(vm.co, k, Lookup(globals, key))
    }

    /** The global under `key` as a `mlua::Function`. */
    function GetFunction(key: string): (r: Result<nat>)
      ensures r.Ok? <==> key in globals && globals[key].Func?
      ensures r.Ok? ==> globals[key] == Func(r.value)
    {
      match Lookup(globals, key)
      case Func(f) => Ok(f)
      case v => Err(ConversionError(v, "function"))
    }

    /** Calls function `f` with `args`; the call may change the globals. */
    function Call(vm: Vm, f: nat, args: seq<Value>): (r: (Script, Result<seq<Value>>))
      ensures r.0.name == name && r.0.content == content
      ensures r.0.globals == vm.call(f, args, globals).globals
      ensures r.1 == vm.call(f, args, globals).result
    {
      var eff := vm.call(f, args, globals);
      (this.(globals := eff.globals), eff.result)
    }

    /**
     * `Script::call_function`: a missing or non-function global is an error
     * and runs nothing; otherwise the function runs with no arguments.
     */
    function CallFunction(vm: Vm, key: string): (r: (Script, Result<()>))
      ensures r.0.name == name && r.0.content == content
      ensures GetFunction(key).Err? ==> r == (this, Err(GetFunction(key).error))
      ensures GetFunction(key).Ok? ==>
        r.0.globals == vm.call(GetFunction(key).value, [], globals).globals
        && (r.1.Ok? <==> vm.call(GetFunction(key).value, [], globals).result.Ok?)
    {
      match GetFunction(key)
      case Err(e) => (this, Err(e))
      case Ok(f) =>
        var (s, res) := Call(vm, f, []);
        (s, if res.Ok? then Ok(()) else Err(res.error))
    }

    /**
     * `Script::call_method`: like `call_function`, then the first returned
     * value (nil when there is none) is decoded as `k`.
     */
    function CallMethod(vm: Vm, key: string, k: Kind): (r: (Script, Outcome<Data>))
      ensures r.0.name == name && r.0.content == content
      ensures GetFunction(key).Err? ==> r == (this, Failure(GetFunction(key).error))
      ensures GetFunction(key).Ok? ==> r.0.globals == vm.call(GetFunction(key).value, [], globals).globals
      ensures GetFunction(key).Ok? && vm.call(GetFunction(key).value, [], globals).result.Err? ==>
        r.1 == Failure(vm.call(GetFunction(key).value, [], globals).result.error)
      ensures GetFunction(key).Ok? && vm.call(GetFunction(key).value, [], globals).result.Ok? ==>
        var vs := vm.call(GetFunction(key).value, [], globals).result.value;
        r.1 == Decode(vm.co, k, if |vs| == 0 then Nil else vs[0])
    {
      match GetFunction(key)
      case Err(e) => (this, Failure(e))
      case Ok(f) =>
        var (s, res) := Call(vm, f, []);
        match res
        case Err(e) => (s, Failure(e))
        case Ok(vs) => (s, Decode(vm.co, k, if |vs| == 0 then Nil else vs[0]))
    }
  }
}

=== FILE: main.dfy ===
/**
 * The crate root `src/main.rs`: the run mode read from the environment, the
 * log filters derived from it, the struct shapes scripts hand to the engine
 * (`Vector`, `Transform`, `Color`, `Material`, `Component`), and the
 * `rust_log` userdata through which scripts write to the engine log.
 */
module Pebble {
  import opened Wrappers
  import opened Text
  import opened LuaBinding

  // ---------------------------------------------------------------------
  // Run mode (src/main.rs:21-43)
  // ---------------------------------------------------------------------

  datatype PebbleMode = Release | Debug

  /**
   * `Config::new`: the mode is `Debug` exactly when the environment variable
   * `PebbleMode` holds "debug"; an absent variable reads as "".
   */
  function ConfigMode(env: map<string, string>): (mode: PebbleMode)
    ensures mode == PebbleMode.Debug <==> "PebbleMode" in env && env["PebbleMode"] == "debug"
  {
    var modeText := if "PebbleMode" in env then env["PebbleMode"] else "";
    if modeText == "debug" then PebbleMode.Debug else PebbleMode.Release
  }

  // ---------------------------------------------------------------------
  // Log levels and filters (src/main.rs:100-128)
  // ---------------------------------------------------------------------

  /** `log::Level`, most severe first. */
  datatype Level = Error | Warn | Info | Debug | Trace

  /** The level's place in `log`'s order; a `LevelFilter` is the same scale with 0 for `Off`. */
  function Rank(l: Level): (n: nat)
    ensures 1 <= n <= 5
  {
    match l
    case Error => 1
    case Warn => 2
    case Info => 3
    case Debug => 4
    case Trace => 5
  }

  /** The two directives `MyLogger::new` installs: a default and one for targets under "pebble". */
  datatype Filters = Filters(default: nat, pebble: nat)

  /**
   * `MyLogger::new`: everything defaults to `Error`; the engine's own
   * targets go up to `Info` in release mode and to `Trace` in debug mode.
   */
  function LoggerFilters(mode: PebbleMode): (f: Filters)
    ensures f.default == Rank(Level.Error)
    ensures mode == PebbleMode.Release ==> f.pebble == Rank(Info)
    ensures mode == PebbleMode.Debug ==> f.pebble == Rank(Trace)
  {
    Filters(Rank(Level.Error), if mode == PebbleMode.Release then Rank(Info) else Rank(Trace))
  }

  /** `MyLogger::init`'s `set_max_level`: the most verbose directive. */
  function MaxLevel(f: Filters): (n: nat)
    ensures n >= f.default && n >= f.pebble
    ensures n == f.default || n == f.pebble
  {
    if f.default < f.pebble then f.pebble else f.default
  }

  /** `MyLogger::enabled`: the directive for "pebble" governs every target that starts with it. */
  predicate Enabled(f: Filters, target: string, level: Level)
    ensures Enabled(f, target, level) ==> Rank(level) <= MaxLevel(f)
  {
    if StartsWith(target, "pebble") then Rank(level) <= f.pebble else Rank(level) <= f.default
  }

  /**
   * The filters by mode: engine targets keep error, warn and info in
   * release mode and everything in debug mode; other crates keep only
   * errors.
   */
  lemma FiltersByMode(env: map<string, string>, target: string, level: Level)
    ensures var f := LoggerFilters(ConfigMode(env));
      && (StartsWith(target, "pebble") && ConfigMode(env) == PebbleMode.Release ==>
            (Enabled(f, target, level) <==> level in {Level.Error, Warn, Info}))
      && (StartsWith(target, "pebble") && ConfigMode(env) == PebbleMode.Debug ==> Enabled(f, target, level))
      && (!StartsWith(target, "pebble") ==> (Enabled(f, target, level) <==> level == Level.Error))
  {
  }

  // ---------------------------------------------------------------------
  // Struct shapes (src/main.rs:47-88, 152-166)
  // ---------------------------------------------------------------------

  const VectorSchema := Schema([Field("x", KNumber), Field("y", KNumber)])

  const TransformSchema := Schema([Field("position", KStruct(VectorSchema)), Field("rotation", KNumber), Field("scale", KStruct(VectorSchema))])

  const ColorSchema := Schema([Field("r", KNumber), Field("g", KNumber), Field("b", KNumber), Field("a", KNumber)])

  const MaterialSchema := Schema([Field("albedo", KStruct(ColorSchema)), Field("texture", KOptional(KText))])

  /** `Material::new`: an opaque light grey albedo and no texture. */
  const DefaultMaterial := DStruct([DStruct([DNumber(222.0), DNumber(222.0), DNumber(222.0), DNumber(255.0)]), DNone])

  /** The `texture` field of a decoded `Material`. */
  function TextureOf(material: Data): (t: Option<string>)
    requires Conforms(material, KStruct(MaterialSchema))
    ensures t.None? <==> material.values[1].DNone?
    ensures t.Some? ==> material.values[1] == DSome(DText(t.value))
  {
    assert FieldConforms(material.values[1], MaterialSchema, 1);
    var texture := material.values[1];
    assert MaterialSchema.fields[1].kind == KOptional(KText);
    assert Conforms(texture, KOptional(KText));
    if texture.DSome? then Some(texture.inner.text) else None
  }

  /** `Material::new` has the declared shape and draws untextured. */
  lemma DefaultMaterialUntextured()
    ensures Conforms(DefaultMaterial, KStruct(MaterialSchema))
    ensures TextureOf(DefaultMaterial) == None
  {
    assert FieldConforms(DefaultMaterial.values[0], MaterialSchema, 0) by {
      var albedo := DefaultMaterial.values[0];
      forall j | 0 <= j < 4
        ensures FieldConforms(albedo.values[j], ColorSchema, j)
      {
      }
    }
    assert FieldConforms(DefaultMaterial.values[1], MaterialSchema, 1);
  }

  // ---------------------------------------------------------------------
  // rust_log (src/main.rs:168-200)
  // ---------------------------------------------------------------------

  /** What `inspect_stack(2)` reports about the Lua caller. */
  datatype StackInfo = StackInfo(shortSrc: Option<string>, currentLine: int)

  /** The file shown for a log line: the script's name when the frame is Rust code, every "./" deleted. */
  function LogFile(shortSrc: string, scriptName: string): (file: string)
    ensures Contains(shortSrc, ".rs") ==> file == StripDotSlash(scriptName)
    ensures !Contains(shortSrc, ".rs") ==> file == StripDotSlash(shortSrc)
    ensures !Contains(shortSrc, ".rs") && !Contains(shortSrc, "./") ==> file == shortSrc
  {
    if Contains(shortSrc, ".rs") then StripDotSlash(scriptName)
    else if Contains(shortSrc, "./") then StripDotSlash(shortSrc)
    else StripWithoutOccurrence(shortSrc); StripDotSlash(shortSrc)
  }

  /**
   * `format_log`: the message followed by " on [file:line]"; a missing
   * stack frame or a frame without a source name panics.
   */
  function FormatLog(data: string, frame: Option<StackInfo>, log: HostObject): (r: Outcome<string>)
    ensures r.Success? <==> frame.Some? && frame.value.shortSrc.Some?
    ensures !r.Failure?
    ensures r.Success? ==>
      var file := LogFile(frame.value.shortSrc.value, log.name);
      && StartsWith(r.value, data + " on [" + file + ":")
      && r.value[|r.value| - 1] == ']'
      && |r.value| == |data| + 7 + |file| + |IntToString(frame.value.currentLine)|
      && r.value == data + " on [" + file + ":" + IntToString(frame.value.currentLine) + "]"
  {
    match frame
    case None => Panic("called `Option::unwrap()` on a `None` value")
    case Some(info) =>
      match info.shortSrc
      case None => Panic("called `Option::unwrap()` on a `None` value")
      case Some(src) =>
        var head := data + " on [" + LogFile(src, log.name) + ":";
        var s := head + IntToString(info.currentLine) + "]";
        assert s[..|head|] == head;
        Success(s)
  }

  /** The line number in a formatted message reads back as the frame's line. */
  lemma FormatLogLineReadsBack(data: string, frame: Option<StackInfo>, log: HostObject)
    requires FormatLog(data, frame, log).Success? && frame.value.currentLine >= 0
    ensures var m := FormatLog(data, frame, log).value;
      var digits := NatToString(frame.value.currentLine);
      && AllDigits(m[|m| - 1 - |digits|..|m| - 1])
      && ParseNat(m[|m| - 1 - |digits|..|m| - 1]) == frame.value.currentLine
  {
    var m := FormatLog(data, frame, log).value;
    var digits := NatToString(frame.value.currentLine);
    var head := data + " on [" + LogFile(frame.value.shortSrc.value, log.name) + ":";
    assert m == head + digits + "]";
    assert m[|m| - 1 - |digits|..|m| - 1] == digits;
    ParseNatToString(frame.value.currentLine);
  }

  /**
   * `replace("./", "")` makes a single pass: the "./" that the deletion
   * itself brings together survives.
   */
  lemma SinglePassLeavesDotSlash()
    ensures StripDotSlash("..//") == "./"
  {
    assert "..//"[1..] == ".//";
    assert ".//"[2..] == "/";
    assert "/"[1..] == "";
  }

  /** The methods of `rust_log`, by the name a script calls. */
  function MethodLevel(name: string): (r: Option<Level>)
    ensures r.Some? <==> name in {"info", "warn", "error", "debug", "trace"}
  {
    match name
    case "info" => Some(Info)
    case "warn" => Some(Warn)
    case "error" => Some(Level.Error)
    case "debug" => Some(Level.Debug)
    case "trace" => Some(Trace)
    case _ => None
  }

  function LevelName(l: Level): string
  {
    match l
    case Error => "error"
    case Warn => "warn"
    case Info => "info"
    case Debug => "debug"
    case Trace => "trace"
  }

  /** Every level has exactly one method, named after it. */
  lemma MethodLevelRoundTrip(l: Level, name: string)
    ensures MethodLevel(LevelName(l)) == Some(l)
    ensures MethodLevel(name).Some? ==> LevelName(MethodLevel(name).value) == name
  {
  }

  /** A line kept by the logger. */
  datatype Record = Record(level: Level, message: string)

  /**
   * `rust_log:<method>(data)`: an unknown method is an error raised to the
   * script; a level above the maximum is dropped before the message is
   * formatted (so it cannot panic); otherwise the message is formatted and
   * kept when the "pebble" directive allows its level.
   */
  function LogCall(f: Filters, name: string, data: string, frame: Option<StackInfo>, log: HostObject): (r: Outcome<Option<Record>>)
    ensures MethodLevel(name).None? ==> r.Failure?
    ensures MethodLevel(name).Some? && Rank(MethodLevel(name).value) > MaxLevel(f) ==> r == Success(None)
    ensures r.Success? && r.value.Some? ==>
      && r.value.value.level == MethodLevel(name).value
      && Enabled(f, "pebble", r.value.value.level)
      && Success(r.value.value.message) == FormatLog(data, frame, log)
    ensures r.Panic? ==> FormatLog(data, frame, log).Panic?
    ensures MethodLevel(name).Some? && Rank(MethodLevel(name).value) <= MaxLevel(f) && FormatLog(data, frame, log).Panic? ==>
      r == Panic(FormatLog(data, frame, log).message)
  {
    match MethodLevel(name)
    case None => Failure("attempt to call a nil value (method '" + name + "')")
    case Some(level) =>
      if Rank(level) > MaxLevel(f) then Success(None)
      else
        match FormatLog(data, frame, log)
        case Success(message) =>
          Success(if Enabled(f, "pebble", level) then Some(Record(level, message)) else None)
        case Failure(e) => Failure(e)
        case Panic(m) => Panic(m)
  }

  /** In release mode a script's debug and trace lines are dropped, even with no stack frame to format. */
  lemma ReleaseDropsVerboseLines(env: map<string, string>, name: string, data: string, frame: Option<StackInfo>, log: HostObject)
    requires ConfigMode(env) == PebbleMode.Release
    requires name == "debug" || name == "trace"
    ensures LogCall(LoggerFilters(ConfigMode(env)), name, data, frame, log) == Success(None)
  {
  }

  /** With the filters the logger installs, every line that passes the maximum is kept. */
  lemma LoggerKeepsWhatPassesMaxLevel(mode: PebbleMode, name: string, data: string, frame: Option<StackInfo>, log: HostObject)
    requires MethodLevel(name).Some? && Rank(MethodLevel(name).value) <= MaxLevel(LoggerFilters(mode))
    requires frame.Some? && frame.value.shortSrc.Some?
    ensures LogCall(LoggerFilters(mode), name, data, frame, log)
      == Success(Some(Record(MethodLevel(name).value, FormatLog(data, frame, log).value)))
  {
  }

  /**
   * `add_core_library`: installs a `rust_log` global naming the script;
   * nothing else in the script changes.
   */
  function AddCoreLibrary(s: Script): (r: Script)
    ensures r.name == s.name && r.content == s.content
    ensures "rust_log" in r.globals && r.globals["rust_log"] == UserData(LuaLog(s.name))
    ensures forall k :: k in s.globals && k != "rust_log" ==> k in r.globals && r.globals[k] == s.globals[k]
    ensures r.globals.Keys == s.globals.Keys + {"rust_log"}
  {
    s.(globals := s.globals["rust_log" := UserData(LuaLog(s.name))])
  }
}

=== FILE: state.dfy ===
/**
 * The frame loops of `src/state.rs`.
 *
 * `State` drives the gameobjects through members that `src/gameobject.rs`
 * and `src/assets.rs` do not define (`is_loaded`, `init`, `watch`,
 * `is_assets_reloaded`, `render`, `load_ui_texture`, `get_ui_texture`,
 * `load_texture`, `get_filename`).  They are given no semantics here: the
 * flag and the answers are inputs (`Entity`, `Host`), and every call with
 * an effect is recorded, in order, in the state's `trace`.  What is proved
 * is which calls are made, when, and in what order.
 */
module EngineState {
  import opened Wrappers
  import opened Text
  import opened LuaBinding
  import opened Assets
  import Pebble
  import Engine
  import GameObject

  /** What `State` holds of one gameobject: its `is_loaded` flag and the gameobject's own state. */
  datatype Entity = Entity(isLoaded: bool, frame: GameObject.Frame)

  /** A call with an effect on something outside the loop, in the order it is made. */
  datatype Call =
    | LoadUiTexture(file: string)
    | Init(index: nat)
    | IsAssetsReloaded(index: nat)
    | LoadTexture(index: nat, filename: string)
    | ErrorLogged(message: string)
    | Update(index: nat, delta: real)
    | Watch(index: nat)
    | Render(index: nat)

  /** The answers of the undefined members. */
  datatype Host = Host(
    loadUiTexture: string -> Result<()>,
    isAssetsReloaded: nat -> bool,
    getFilename: LuaAsset -> string,
    loadTexture: string -> Result<()>)

  // ---------------------------------------------------------------------
  // Pure helpers (src/state.rs:38-40, 80-101)
  // ---------------------------------------------------------------------

  /** The five icons `init` loads, in the order it loads them. */
  const Icons: seq<string> := ["warning.png", "info.png", "trace.png", "error.png", "debug.png"]

  /** The icon the log window shows beside a line of the given level. */
  function IconOf(level: Pebble.Level): (icon: string)
    ensures icon in Icons
  {
    match level
    case Error => "error.png"
    case Warn => "warning.png"
    case Info => "info.png"
    case Debug => "debug.png"
    case Trace => "trace.png"
  }

  /** Every level has an icon of its own. */
  lemma IconOfInjective(a: Pebble.Level, b: Pebble.Level)
    requires IconOf(a) == IconOf(b)
    ensures a == b
  {
  }

  /** The wall-clock fields `date_to_string` reads. */
  datatype Time = Time(hour: nat, minute: nat, second: nat)

  /** `date_to_string`: hour, minute and second joined by ':' with no padding. */
  function DateToString(t: Time): (r: string)
    ensures |r| >= 5
    ensures forall i :: 0 <= i < |r| ==> r[i] == ':' || IsDigit(r[i])
  {
    NatToString(t.hour) + ":" + NatToString(t.minute) + ":" + NatToString(t.second)
  }

  lemma DigitsHaveNoColon(n: nat)
    ensures forall i :: 0 <= i < |NatToString(n)| ==> NatToString(n)[i] != ':'
  {
    var s := NatToString(n);
    assert forall i :: 0 <= i < |s| ==> IsDigit(s[i]);
  }

  /** Different times are shown differently. */
  lemma DateToStringInjective(t: Time, u: Time)
    requires DateToString(t) == DateToString(u)
    ensures t == u
  {
    var h, m, s := NatToString(t.hour), NatToString(t.minute), NatToString(t.second);
    var h', m', s' := NatToString(u.hour), NatToString(u.minute), NatToString(u.second);
    DigitsHaveNoColon(t.hour);
    DigitsHaveNoColon(u.hour);
    DigitsHaveNoColon(t.minute);
    DigitsHaveNoColon(u.minute);
    assert DateToString(t) == h + [':'] + (m + [':'] + s);
    assert DateToString(u) == h' + [':'] + (m' + [':'] + s');
    SplitAtSeparator(h, m + [':'] + s, h', m' + [':'] + s', ':');
    SplitAtSeparator(m, s, m', s', ':');
    NatToStringInjective(t.hour, u.hour);
    NatToStringInjective(t.minute, u.minute);
    NatToStringInjective(t.second, u.second);
  }

  /** No field is zero-padded: the text starts with '0' only at hour zero. */
  lemma DateToStringUnpadded(t: Time)
    ensures DateToString(t)[0] == '0' <==> t.hour == 0
  {
    assert DateToString(t)[0] == NatToString(t.hour)[0];
  }

  /** One entry of the global log as the log window reads it. */
  datatype LogLine = LogLine(line: nat, data: string, level: Pebble.Level, file: string, date: Time)

  /** The part of a label every level shows. */
  function LabelBase(log: LogLine): string
  {
    "[" + DateToString(log.date) + "] - " + log.data
  }

  /** The text beside the icon: the location is appended for Debug and Trace only. */
  function Label(log: LogLine): (r: string)
    ensures StartsWith(r, LabelBase(log))
    ensures |r| > |LabelBase(log)| <==> log.level in {Pebble.Level.Debug, Pebble.Level.Trace}
  {
    if log.level == Pebble.Level.Debug || log.level == Pebble.Level.Trace then
      var r := LabelBase(log) + " on [" + log.file + ":" + NatToString(log.line) + "]";
      assert r[..|LabelBase(log)|] == LabelBase(log);
      r
    else
      LabelBase(log)
  }

  /**
   * Debug and Trace labels end in " on [file:line]" and the line number
   * reads back from them; every other label is the time and the data alone.
   */
  lemma LabelShowsLocationOnlyWhenVerbose(log: LogLine)
    ensures log.level in {Pebble.Level.Debug, Pebble.Level.Trace} ==>
      Label(log) == LabelBase(log) + " on [" + log.file + ":" + NatToString(log.line) + "]"
    ensures log.level !in {Pebble.Level.Debug, Pebble.Level.Trace} ==> Label(log) == LabelBase(log)
    ensures var l, digits := Label(log), NatToString(log.line);
      log.level in {Pebble.Level.Debug, Pebble.Level.Trace} ==>
        && |l| > |digits|
        && l[|l| - 1 - |digits|..|l| - 1] == digits
        && ParseNat(l[|l| - 1 - |digits|..|l| - 1]) == log.line
  {
    var l, digits := Label(log), NatToString(log.line);
    if log.level in {Pebble.Level.Debug, Pebble.Level.Trace} {
      var head := LabelBase(log) + " on [" + log.file + ":";
      assert l == head + digits + "]";
      assert l[|l| - 1 - |digits|..|l| - 1] == digits;
      ParseNatToString(log.line);
    }
  }

  // ---------------------------------------------------------------------
  // init (src/state.rs:25-35)
  // ---------------------------------------------------------------------

  /** Loading `icons` in order; the first failing load (an `unwrap`) panics. */
  function IconLoads(host: Host, icons: seq<string>): (r: (seq<Call>, Status))
    decreases |icons|
  {
    if |icons| == 0 then ([], Completed)
    else
      match host.loadUiTexture(icons[0])
      case Err(e) => ([LoadUiTexture(icons[0])], Aborted(e))
      case Ok(_) =>
        var rest := IconLoads(host, icons[1..]);
        ([LoadUiTexture(icons[0])] + rest.0, rest.1)
  }

  /** `init` on objects `0..n` in order. */
  function Inits(n: nat): (r: seq<Call>)
    ensures |r| == n
    ensures forall i :: 0 <= i < n ==> r[i] == Init(i)
  {
    seq(n, i requires 0 <= i < n => Init(i))
  }

  /** What `State::init` does: the icons, then every gameobject's `init`. */
  function InitTrace(host: Host, n: nat): (r: (seq<Call>, Status))
  {
    var icons := IconLoads(host, Icons);
    if icons.1.Aborted? then icons else (icons.0 + Inits(n), Completed)
  }

  /** The icon loads succeed in order until the first failure, which panics. */
  lemma {:induction false} IconLoadsInOrder(host: Host, icons: seq<string>)
    ensures var (calls, st) := IconLoads(host, icons);
      && |calls| <= |icons|
      && (forall k :: 0 <= k < |calls| ==> calls[k] == LoadUiTexture(icons[k]))
      && (forall k :: 0 <= k < |calls| - 1 ==> host.loadUiTexture(icons[k]).Ok?)
      && (st.Completed? <==> |calls| == |icons| && forall k :: 0 <= k < |icons| ==> host.loadUiTexture(icons[k]).Ok?)
      && (st.Aborted? ==>
            && |calls| > 0
            && host.loadUiTexture(icons[|calls| - 1]).Err?
            && st == Aborted(host.loadUiTexture(icons[|calls| - 1]).error))
    decreases |icons|
  {
    if |icons| > 0 {
      IconLoadsInOrder(host, icons[1..]);
      var rest := IconLoads(host, icons[1..]);
      if host.loadUiTexture(icons[0]).Ok? {
        forall k | 1 <= k < |icons|
          ensures icons[1..][k - 1] == icons[k]
        {
        }
      }
    }
  }

  /**
   * `init` loads all five icons before any gameobject's `init`, then calls
   * `init` exactly once on every gameobject, in order; a failed icon load
   * panics before any gameobject is touched.
   */
  lemma InitIconsFirst(host: Host, n: nat)
    ensures var (calls, st) := InitTrace(host, n);
      && (st.Completed? <==> forall k :: 0 <= k < |Icons| ==> host.loadUiTexture(Icons[k]).Ok?)
      && (st.Completed? ==>
            |calls| == |Icons| + n
            && (forall k :: 0 <= k < |Icons| ==> calls[k] == LoadUiTexture(Icons[k]))
            && (forall i :: 0 <= i < n ==> calls[|Icons| + i] == Init(i)))
      && (st.Aborted? ==> forall c :: c in calls ==> c.LoadUiTexture?)
  {
    IconLoadsInOrder(host, Icons);
  }

  // ---------------------------------------------------------------------
  // update (src/state.rs:43-67, 111)
  // ---------------------------------------------------------------------

  /**
   * One pair of the `textures` table: decoded as a `LuaAsset` (a failure
   * panics), then `load_texture` on its filename; a load error is logged
   * and the loop goes on.
   */
  function LoadEntry(co: Coercion, v: Value, i: nat, host: Host): (r: (seq<Call>, Status))
    ensures r.1.Aborted? <==> DecodeLuaAsset(co, v).Err?
    ensures r.1.Completed? ==>
      var name := host.getFilename(DecodeLuaAsset(co, v).value);
      && |r.0| > 0
      && r.0[0] == LoadTexture(i, name)
      && (host.loadTexture(name).Ok? <==> |r.0| == 1)
      && (host.loadTexture(name).Err? ==>
            r.0 == [LoadTexture(i, name), ErrorLogged("Error when loading file " + name + " : " + host.loadTexture(name).error)])
  {
    match DecodeLuaAsset(co, v)
    case Err(e) => ([], Aborted(e))
    case Ok(asset) =>
      var name := host.getFilename(asset);
      match host.loadTexture(name)
      case Ok(_) => ([LoadTexture(i, name)], Completed)
      case Err(err) => ([LoadTexture(i, name), ErrorLogged("Error when loading file " + name + " : " + err)], Completed)
  }

  /** The pairs under `keys`, in that order, stopping at the first panic. */
  function LoadEntries(co: Coercion, files: map<string, Value>, keys: seq<string>, i: nat, host: Host): (r: (seq<Call>, Status))
    decreases |keys|
  {
    if |keys| == 0 then ([], Completed)
    else
      var p := LoadEntries(co, files, keys[..|keys| - 1], i, host);
      if p.1.Aborted? then p
      else
        var e := LoadEntry(co, Lookup(files, keys[|keys| - 1]), i, host);
        (p.0 + e.0, e.1)
  }

  /** The pairs under one more key after a completed prefix. */
  lemma LoadEntriesNext(co: Coercion, files: map<string, Value>, keys: seq<string>, j: nat, i: nat, host: Host)
    requires j < |keys|
    requires LoadEntries(co, files, keys[..j], i, host).1.Completed?
    ensures LoadEntries(co, files, keys[..j + 1], i, host) ==
      (LoadEntries(co, files, keys[..j], i, host).0 + LoadEntry(co, Lookup(files, keys[j]), i, host).0,
       LoadEntry(co, Lookup(files, keys[j]), i, host).1)
  {
    assert keys[..j + 1][..j] == keys[..j];
  }

  lemma {:induction false} LoadEntriesStops(co: Coercion, files: map<string, Value>, keys: seq<string>, j: nat, i: nat, host: Host)
    requires j <= |keys|
    requires LoadEntries(co, files, keys[..j], i, host).1.Aborted?
    ensures LoadEntries(co, files, keys, i, host) == LoadEntries(co, files, keys[..j], i, host)
    decreases |keys|
  {
    if j < |keys| {
      var front := keys[..|keys| - 1];
      assert front[..j] == keys[..j];
      LoadEntriesStops(co, files, front, j, i, host);
    } else {
      assert keys[..j] == keys;
    }
  }

  /** The asset refresh of one gameobject: its `Assets.textures` pairs in the interpreter's `pairs` order. */
  function Refresh(s: Script, i: nat, host: Host, vm: Vm): (r: (seq<Call>, Status))
  {
    var assets := Engine.TableAt(s.globals, "Assets");
    if !assets.Success? then ([], Aborted(assets.message))
    else
      var files := Engine.TableAt(assets.value, "textures");
      if !files.Success? then ([], Aborted(files.message))
      else LoadEntries(vm.co, files.value, vm.pairs(files.value), i, host)
  }

  /** A refresh panics exactly when some pair of `textures` does not decode: a failed load does not stop it. */
  lemma {:induction false} LoadEntriesOnlyDecodeAborts(co: Coercion, files: map<string, Value>, keys: seq<string>, i: nat, host: Host)
    ensures LoadEntries(co, files, keys, i, host).1.Aborted? <==>
      exists k :: 0 <= k < |keys| && DecodeLuaAsset(co, Lookup(files, keys[k])).Err?
    decreases |keys|
  {
    if |keys| > 0 {
      var front := keys[..|keys| - 1];
      LoadEntriesOnlyDecodeAborts(co, files, front, i, host);
      if LoadEntries(co, files, front, i, host).1.Aborted? {
        var k :| 0 <= k < |front| && DecodeLuaAsset(co, Lookup(files, front[k])).Err?;
        assert front[k] == keys[k];
      } else {
        forall k | 0 <= k < |front|
          ensures DecodeLuaAsset(co, Lookup(files, keys[k])).Ok?
        {
          assert front[k] == keys[k];
        }
      }
    }
  }

  /** The `load_texture` calls of a trace, in the order they were made. */
  function Loads(calls: seq<Call>): (r: seq<Call>)
    ensures |r| <= |calls|
    ensures forall k :: 0 <= k < |r| ==> r[k].LoadTexture?
    decreases |calls|
  {
    if |calls| == 0 then []
    else
      var last := calls[|calls| - 1];
      Loads(calls[..|calls| - 1]) + if last.LoadTexture? then [last] else []
  }

  lemma {:induction false} LoadsAppend(a: seq<Call>, b: seq<Call>)
    ensures Loads(a + b) == Loads(a) + Loads(b)
    decreases |b|
  {
    if |b| == 0 {
      assert a + b == a;
    } else {
      var front := b[..|b| - 1];
      LoadsAppend(a, front);
      assert (a + b)[..|a + b| - 1] == a + front;
    }
  }

  /** A pair that decodes contributes exactly one `load_texture` call. */
  lemma LoadEntryLoadsOnce(co: Coercion, v: Value, i: nat, host: Host)
    requires LoadEntry(co, v, i, host).1.Completed?
    ensures Loads(LoadEntry(co, v, i, host).0) == [LoadTexture(i, host.getFilename(DecodeLuaAsset(co, v).value))]
  {
    var e := LoadEntry(co, v, i, host).0;
    assert e[..1] == [e[0]];
    assert Loads([e[0]]) == Loads([]) + [e[0]];
    if |e| == 2 {
      assert e[..|e| - 1] == [e[0]];
    }
  }

  /**
   * A refresh that completes asks for the texture of every pair of
   * `textures`, once each and in the order the keys are visited.
   */
  lemma {:induction false} LoadEntriesLoadsEveryPair(co: Coercion, files: map<string, Value>, keys: seq<string>, i: nat, host: Host)
    requires LoadEntries(co, files, keys, i, host).1.Completed?
    ensures |Loads(LoadEntries(co, files, keys, i, host).0)| == |keys|
    ensures forall k :: 0 <= k < |keys| ==>
      && DecodeLuaAsset(co, Lookup(files, keys[k])).Ok?
      && Loads(LoadEntries(co, files, keys, i, host).0)[k] ==
           LoadTexture(i, host.getFilename(DecodeLuaAsset(co, Lookup(files, keys[k])).value))
    decreases |keys|
  {
    if |keys| > 0 {
      var front := keys[..|keys| - 1];
      var last := Lookup(files, keys[|keys| - 1]);
      var p := LoadEntries(co, files, front, i, host);
      var e := LoadEntry(co, last, i, host);
      assert p.1.Completed? && LoadEntries(co, files, keys, i, host) == (p.0 + e.0, e.1);
      LoadEntriesLoadsEveryPair(co, files, front, i, host);
      LoadEntryLoadsOnce(co, last, i, host);
      LoadsAppend(p.0, e.0);
      var loads := Loads(p.0 + e.0);
      assert loads == Loads(p.0) + [LoadTexture(i, host.getFilename(DecodeLuaAsset(co, last).value))];
      forall k | 0 <= k < |keys|
        ensures DecodeLuaAsset(co, Lookup(files, keys[k])).Ok?
        ensures loads[k] == LoadTexture(i, host.getFilename(DecodeLuaAsset(co, Lookup(files, keys[k])).value))
      {
        if k < |front| {
          assert front[k] == keys[k];
        }
      }
    }
  }
  /** The asset refresh of a loaded gameobject, made only when `is_assets_reloaded` says so. */
  function ObjectRefresh(e: Entity, i: nat, host: Host, vm: Vm): (r: (seq<Call>, Status))
  {
    if host.isAssetsReloaded(i) then Refresh(e.frame.script, i, host, vm) else ([], Completed)
  }

  /**
   * One gameobject's part of `update`: a loaded one is asked
   * `is_assets_reloaded`, refreshes its assets when the answer is yes, then
   * is updated (`Gameobject::update`, which can panic); every one that gets
   * this far is watched.
   */
  function ObjectStep(e: Entity, i: nat, host: Host, vm: Vm, fs: map<string, string>, delta: real): (r: (seq<Call>, Status))
  {
    if !e.isLoaded then ([Watch(i)], Completed)
    else
      var refresh := ObjectRefresh(e, i, host, vm);
      if refresh.1.Aborted? then ([IsAssetsReloaded(i)] + refresh.0, refresh.1)
      else
        var updated := GameObject.UpdateStep(e.frame, vm, fs, delta);
        if updated.1.Aborted? then ([IsAssetsReloaded(i)] + refresh.0 + [Update(i, delta)], updated.1)
        else ([IsAssetsReloaded(i)] + refresh.0 + [Update(i, delta), Watch(i)], Completed)
  }

  /** The gameobject after its part of `update`: only the update step changes it. */
  function Stepped(e: Entity, i: nat, host: Host, vm: Vm, fs: map<string, string>, delta: real): (r: Entity)
    ensures r.isLoaded == e.isLoaded && r.frame.name == e.frame.name
    ensures !e.isLoaded ==> r == e
    ensures e.isLoaded && ObjectStep(e, i, host, vm, fs, delta).1.Completed? ==>
      r.frame == GameObject.UpdateStep(e.frame, vm, fs, delta).0
  {
    if e.isLoaded && ObjectRefresh(e, i, host, vm).1.Completed? then
      e.(frame := GameObject.UpdateStep(e.frame, vm, fs, delta).0)
    else e
  }

  /** The gameobjects after the first `k` have taken their part of `update`. */
  function SteppedUpTo(entities: seq<Entity>, k: nat, host: Host, vm: Vm, fs: map<string, string>, delta: real): (r: seq<Entity>)
    ensures |r| == |entities|
    ensures forall j :: 0 <= j < |entities| ==> r[j] == if j < k then Stepped(entities[j], j, host, vm, fs, delta) else entities[j]
  {
    seq(|entities|, j requires 0 <= j < |entities| => if j < k then Stepped(entities[j], j, host, vm, fs, delta) else entities[j])
  }

  /** Stepping gameobject `k` after the first `k`. */
  lemma SteppedUpToNext(entities: seq<Entity>, k: nat, host: Host, vm: Vm, fs: map<string, string>, delta: real)
    requires k < |entities|
    ensures SteppedUpTo(entities, k, host, vm, fs, delta)[k := Stepped(entities[k], k, host, vm, fs, delta)]
      == SteppedUpTo(entities, k + 1, host, vm, fs, delta)
  {
  }

  /** `update` over the gameobjects in order, stopping at the first panic. */
  function UpdateTrace(entities: seq<Entity>, host: Host, vm: Vm, fs: map<string, string>, delta: real): (r: (seq<Call>, Status))
    decreases |entities|
  {
    if |entities| == 0 then ([], Completed)
    else
      var n := |entities| - 1;
      var p := UpdateTrace(entities[..n], host, vm, fs, delta);
      if p.1.Aborted? then p
      else
        var s := ObjectStep(entities[n], n, host, vm, fs, delta);
        (p.0 + s.0, s.1)
  }

  /** `update` over one more gameobject after a completed prefix. */
  lemma UpdateTraceNext(entities: seq<Entity>, i: nat, host: Host, vm: Vm, fs: map<string, string>, delta: real)
    requires i < |entities|
    requires UpdateTrace(entities[..i], host, vm, fs, delta).1.Completed?
    ensures UpdateTrace(entities[..i + 1], host, vm, fs, delta) ==
      (UpdateTrace(entities[..i], host, vm, fs, delta).0 + ObjectStep(entities[i], i, host, vm, fs, delta).0,
       ObjectStep(entities[i], i, host, vm, fs, delta).1)
  {
    assert entities[..i + 1][..i] == entities[..i];
  }

  lemma {:induction false} UpdateTraceStops(entities: seq<Entity>, k: nat, host: Host, vm: Vm, fs: map<string, string>, delta: real)
    requires k <= |entities|
    requires UpdateTrace(entities[..k], host, vm, fs, delta).1.Aborted?
    ensures UpdateTrace(entities, host, vm, fs, delta) == UpdateTrace(entities[..k], host, vm, fs, delta)
    decreases |entities|
  {
    if k < |entities| {
      var front := entities[..|entities| - 1];
      assert front[..k] == entities[..k];
      UpdateTraceStops(front, k, host, vm, fs, delta);
    } else {
      assert entities[..k] == entities;
    }
  }

  /** The calls of a refresh all belong to its gameobject or are log lines. */
  lemma {:induction false} LoadEntriesCallsAreOwn(co: Coercion, files: map<string, Value>, keys: seq<string>, i: nat, host: Host)
    ensures forall c :: c in LoadEntries(co, files, keys, i, host).0 ==>
      (c.LoadTexture? && c.index == i) || c.ErrorLogged?
    decreases |keys|
  {
    if |keys| > 0 {
      LoadEntriesCallsAreOwn(co, files, keys[..|keys| - 1], i, host);
    }
  }

  /**
   * The gating of one gameobject: an unloaded one is only watched; a
   * loaded one is asked `is_assets_reloaded` first, is refreshed only when
   * the answer is yes, is updated once after a refresh that completes, and
   * is watched last; a panic of the refresh or of the update ends the step
   * with that panic.
   */
  lemma ObjectStepGating(e: Entity, i: nat, host: Host, vm: Vm, fs: map<string, string>, delta: real)
    ensures var (calls, st) := ObjectStep(e, i, host, vm, fs, delta);
      var updated := GameObject.UpdateStep(e.frame, vm, fs, delta);
      && (!e.isLoaded ==> calls == [Watch(i)] && st.Completed?)
      && (e.isLoaded ==> |calls| > 0 && calls[0] == IsAssetsReloaded(i))
      && (e.isLoaded && !host.isAssetsReloaded(i) ==>
            && st == updated.1
            && calls == [IsAssetsReloaded(i), Update(i, delta)] + (if st.Completed? then [Watch(i)] else []))
      && (e.isLoaded && host.isAssetsReloaded(i) ==>
            var refresh := Refresh(e.frame.script, i, host, vm);
            && (refresh.1.Aborted? ==> st == refresh.1 && Update(i, delta) !in calls && Watch(i) !in calls)
            && (refresh.1.Completed? ==> st == updated.1 && Update(i, delta) in calls)
            && (st.Completed? ==> calls == [IsAssetsReloaded(i)] + refresh.0 + [Update(i, delta), Watch(i)]))
  {
    if e.isLoaded && host.isAssetsReloaded(i) {
      var assets := Engine.TableAt(e.frame.script.globals, "Assets");
      if assets.Success? {
        var files := Engine.TableAt(assets.value, "textures");
        if files.Success? {
          LoadEntriesCallsAreOwn(vm.co, files.value, vm.pairs(files.value), i, host);
        }
      }
    }
  }

  /** One gameobject's part of `update` makes calls about that gameobject only, and log lines. */
  lemma ObjectStepCallsAreOwn(e: Entity, i: nat, host: Host, vm: Vm, fs: map<string, string>, delta: real)
    ensures var calls := ObjectStep(e, i, host, vm, fs, delta).0;
      && (forall c :: c in calls ==> c.IsAssetsReloaded? || c.Update? || c.Watch? || c.LoadTexture? || c.ErrorLogged?)
      && (forall c :: c in calls && (c.IsAssetsReloaded? || c.Update? || c.Watch? || c.LoadTexture?) ==> c.index == i)
  {
    if e.isLoaded && host.isAssetsReloaded(i) {
      var assets := Engine.TableAt(e.frame.script.globals, "Assets");
      if assets.Success? {
        var files := Engine.TableAt(assets.value, "textures");
        if files.Success? {
          LoadEntriesCallsAreOwn(vm.co, files.value, vm.pairs(files.value), i, host);
        }
      }
    }
  }

  /**
   * A completed `update` watched every gameobject and updated exactly the
   * loaded ones, and then no loaded gameobject's own update panicked.
   */
  lemma {:induction false} UpdateWatchesEveryObject(entities: seq<Entity>, host: Host, vm: Vm, fs: map<string, string>, delta: real)
    ensures var (calls, st) := UpdateTrace(entities, host, vm, fs, delta);
      && (forall c :: c in calls && (c.IsAssetsReloaded? || c.Update? || c.Watch? || c.LoadTexture?) ==> c.index < |entities|)
      && (st.Completed? ==>
            forall i :: 0 <= i < |entities| ==>
              && Watch(i) in calls
              && (Update(i, delta) in calls <==> entities[i].isLoaded)
              && (entities[i].isLoaded ==> GameObject.UpdateStep(entities[i].frame, vm, fs, delta).1.Completed?))
    decreases |entities|
  {
    if |entities| > 0 {
      var n := |entities| - 1;
      UpdateWatchesEveryObject(entities[..n], host, vm, fs, delta);
      ObjectStepGating(entities[n], n, host, vm, fs, delta);
      ObjectStepCallsAreOwn(entities[n], n, host, vm, fs, delta);
      var p := UpdateTrace(entities[..n], host, vm, fs, delta);
      var s := ObjectStep(entities[n], n, host, vm, fs, delta);
      if p.1.Completed? && s.1.Completed? {
        assert Watch(n) in s.0;
        forall i | 0 <= i < |entities|
          ensures Watch(i) in p.0 + s.0
          ensures Update(i, delta) in p.0 + s.0 <==> entities[i].isLoaded
          ensures entities[i].isLoaded ==> GameObject.UpdateStep(entities[i].frame, vm, fs, delta).1.Completed?
        {
          if i < n {
            assert entities[..n][i] == entities[i];
            assert Update(i, delta) !in s.0;
          } else if entities[n].isLoaded {
            assert Update(n, delta) in s.0;
          } else {
            assert Update(n, delta) !in p.0;
          }
        }
      }
    }
  }

  // ---------------------------------------------------------------------
  // draw (src/state.rs:114-126)
  // ---------------------------------------------------------------------

  /** `draw` renders the loaded gameobjects, in order. */
  function Rendered(entities: seq<Entity>): (r: seq<Call>)
    decreases |entities|
  {
    if |entities| == 0 then []
    else
      var n := |entities| - 1;
      Rendered(entities[..n]) + if entities[n].isLoaded then [Render(n)] else []
  }

  /**
   * Only loaded gameobjects are rendered, every loaded one is, and they are
   * rendered in collection order, each once.
   */
  lemma {:induction false} DrawRendersLoadedInOrder(entities: seq<Entity>)
    ensures forall k :: 0 <= k < |Rendered(entities)| ==>
      Rendered(entities)[k].Render? && Rendered(entities)[k].index < |entities|
    ensures forall k :: 0 <= k < |Rendered(entities)| ==> entities[Rendered(entities)[k].index].isLoaded
    ensures forall i :: 0 <= i < |entities| && entities[i].isLoaded ==> Render(i) in Rendered(entities)
    ensures forall a, b :: 0 <= a < b < |Rendered(entities)| ==> Rendered(entities)[a].index < Rendered(entities)[b].index
    decreases |entities|
  {
    if |entities| > 0 {
      var n := |entities| - 1;
      var front := entities[..n];
      DrawRendersLoadedInOrder(front);
      var p := Rendered(front);
      var r := Rendered(entities);
      assert r == p + if entities[n].isLoaded then [Render(n)] else [];
      forall k | 0 <= k < |r|
        ensures r[k].Render? && r[k].index < |entities|
        ensures entities[r[k].index].isLoaded
      {
        if k < |p| {
          assert r[k] == p[k];
          assert p[k].Render? && p[k].index < n;
          assert front[p[k].index] == entities[p[k].index];
        }
      }
      forall i | 0 <= i < |entities| && entities[i].isLoaded
        ensures Render(i) in r
      {
        if i < n {
          assert front[i] == entities[i];
          assert Render(i) in p;
        } else {
          assert r[|p|] == Render(n);
        }
      }
    }
  }

  // ---------------------------------------------------------------------
  // State (src/state.rs:9-35, 42-126)
  // ---------------------------------------------------------------------

  /**
   * `State`: the gameobjects as the loops see them and the calls made so
   * far (the loader and the GUI are reached only through undefined
   * members, so they are not fields of the model).
   */
  class State {
    var entities: seq<Entity>
    var trace: seq<Call>

    /** `State::new`: nothing has been called yet. */
    constructor (entities: seq<Entity>)
      ensures this.entities == entities && trace == []
    {
      this.entities := entities;
      trace := [];
    }

    /** `load_ui_texture(file).unwrap()`. */
    method LoadIcon(host: Host, file: string) returns (status: Status)
      modifies this`trace
      ensures trace == old(trace) + [LoadUiTexture(file)]
      ensures status == if host.loadUiTexture(file).Ok? then Completed else Aborted(host.loadUiTexture(file).error)
    {
      trace := trace + [LoadUiTexture(file)];
      var loaded := host.loadUiTexture(file);
      if loaded.Err? {
        return Aborted(loaded.error);
      }
      return Completed;
    }

    /** The five `load_ui_texture(..).unwrap()` lines at the start of `State::init`. */
    method LoadIcons(host: Host) returns (status: Status)
      modifies this`trace
      ensures trace == old(trace) + IconLoads(host, Icons).0
      ensures status == IconLoads(host, Icons).1
    {
      assert Icons[1..] == ["info.png", "trace.png", "error.png", "debug.png"];
      assert Icons[2..] == ["trace.png", "error.png", "debug.png"];
      assert Icons[3..] == ["error.png", "debug.png"];
      assert Icons[4..] == ["debug.png"];
      assert Icons[5..] == [];
      status := LoadIcon(host, "warning.png");
      if status.Aborted? {
        return;
      }
      status := LoadIcon(host, "info.png");
      if status.Aborted? {
        return;
      }
      status := LoadIcon(host, "trace.png");
      if status.Aborted? {
        return;
      }
      status := LoadIcon(host, "error.png");
      if status.Aborted? {
        return;
      }
      status := LoadIcon(host, "debug.png");
    }

    /** `State::init`. */
    method Init(host: Host) returns (status: Status)
      modifies this`trace
      ensures trace == old(trace) + InitTrace(host, |entities|).0
      ensures status == InitTrace(host, |entities|).1
    {
      status := LoadIcons(host);
      if status.Aborted? {
        return;
      }
      ghost var loaded := trace;
      var i := 0;
      while i < |entities|
        invariant 0 <= i <= |entities|
        invariant trace == loaded + Inits(i)
      {
        trace := trace + [Call.Init(i)];
        i := i + 1;
      }
    }

    /** The asset refresh inside `update` for gameobject `i`. */
    method RefreshAssets(i: nat, host: Host, vm: Vm) returns (status: Status)
      requires i < |entities|
      modifies this`trace
      ensures trace == old(trace) + Refresh(entities[i].frame.script, i, host, vm).0
      ensures status == Refresh(entities[i].frame.script, i, host, vm).1
    {
      var assets := Engine.TableAt(entities[i].frame.script.globals, "Assets");
      if !assets.Success? {
        return Aborted(assets.message);
      }
      var files := Engine.TableAt(assets.value, "textures");
      if !files.Success? {
        return Aborted(files.message);
      }
      status := LoadFiles(i, vm.co, files.value, vm.pairs(files.value), host);
    }

    /** The loop over the pairs of `textures` inside the refresh of gameobject `i`. */
    method LoadFiles(i: nat, co: Coercion, files: map<string, Value>, keys: seq<string>, host: Host) returns (status: Status)
      modifies this`trace
      ensures trace == old(trace) + LoadEntries(co, files, keys, i, host).0
      ensures status == LoadEntries(co, files, keys, i, host).1
    {
      ghost var start := trace;
      ghost var done: seq<Call> := [];
      var j := 0;
      status := Completed;
      while j < |keys| && status.Completed?
        invariant 0 <= j <= |keys|
        invariant LoadEntries(co, files, keys[..j], i, host) == (done, status)
        invariant trace == start + done
      {
        LoadEntriesNext(co, files, keys, j, i, host);
        ghost var before := trace;
        status := LoadFile(i, co, Lookup(files, keys[j]), host);
        ghost var e := LoadEntry(co, Lookup(files, keys[j]), i, host);
        assert trace == start + (done + e.0) by {
          assert trace == before + e.0;
        }
        done := done + e.0;
        j := j + 1;
      }
      if status.Aborted? {
        LoadEntriesStops(co, files, keys, j, i, host);
      } else {
        assert keys[..j] == keys;
      }
    }

    /** One pair of `textures` inside the refresh of gameobject `i`. */
    method LoadFile(i: nat, co: Coercion, v: Value, host: Host) returns (status: Status)
      modifies this`trace
      ensures trace == old(trace) + LoadEntry(co, v, i, host).0
      ensures status == LoadEntry(co, v, i, host).1
    {
      var asset := DecodeLuaAsset(co, v);
      if asset.Err? {
        return Aborted(asset.error);
      }
      var loaded := host.loadTexture(host.getFilename(asset.value));
      trace := trace + [LoadTexture(i, host.getFilename(asset.value))];
      if loaded.Err? {
        trace := trace + [ErrorLogged("Error when loading file " + host.getFilename(asset.value) + " : " + loaded.error)];
      }
      return Completed;
    }

    /** The `is_assets_reloaded` test and the refresh it guards, for gameobject `i`. */
    method RefreshIfReloaded(i: nat, host: Host, vm: Vm) returns (status: Status)
      requires i < |entities|
      modifies this`trace
      ensures trace == old(trace) + ObjectRefresh(entities[i], i, host, vm).0
      ensures status == ObjectRefresh(entities[i], i, host, vm).1
    {
      if host.isAssetsReloaded(i) {
        status := RefreshAssets(i, host, vm);
      } else {
        status := Completed;
      }
    }

    /** The body of the loop of `update` for gameobject `i`. */
    method StepObject(i: nat, host: Host, vm: Vm, fs: map<string, string>, delta: real) returns (status: Status)
      requires i < |entities|
      modifies this
      ensures trace == old(trace) + ObjectStep(old(entities)[i], i, host, vm, fs, delta).0
      ensures status == ObjectStep(old(entities)[i], i, host, vm, fs, delta).1
      ensures entities == old(entities)[i := Stepped(old(entities)[i], i, host, vm, fs, delta)]
    {
      var e := entities[i];
      if !e.isLoaded {
        trace := trace + [Watch(i)];
        return Completed;
      }
      ghost var start := trace;
      trace := trace + [IsAssetsReloaded(i)];
      status := RefreshIfReloaded(i, host, vm);
      ghost var refresh := ObjectRefresh(e, i, host, vm);
      assert trace == start + ([IsAssetsReloaded(i)] + refresh.0);
      if status.Aborted? {
        return;
      }
      var updated := GameObject.UpdateStep(e.frame, vm, fs, delta);
      entities := entities[i := e.(frame := updated.0)];
      trace := trace + [Call.Update(i, delta)];
      assert trace == start + ([IsAssetsReloaded(i)] + refresh.0 + [Call.Update(i, delta)]);
      if updated.1.Aborted? {
        return updated.1;
      }
      trace := trace + [Watch(i)];
      assert trace == start + ([IsAssetsReloaded(i)] + refresh.0 + [Call.Update(i, delta), Watch(i)]);
      return Completed;
    }

    /**
     * One turn of the loop of `update`: after the first `i` gameobjects have
     * been stepped with the calls `done`, step gameobject `i`.
     */
    method StepNext(i: nat, host: Host, vm: Vm, fs: map<string, string>, delta: real,
                    ghost initial: seq<Entity>, ghost start: seq<Call>, ghost done: seq<Call>)
      returns (status: Status, ghost done': seq<Call>)
      requires i < |initial| == |entities|
      requires entities == SteppedUpTo(initial, i, host, vm, fs, delta)
      requires UpdateTrace(initial[..i], host, vm, fs, delta) == (done, Completed)
      requires trace == start + done
      modifies this
      ensures entities == SteppedUpTo(initial, i + 1, host, vm, fs, delta)
      ensures UpdateTrace(initial[..i + 1], host, vm, fs, delta) == (done', status)
      ensures trace == start + done'
    {
      assert entities[i] == initial[i];
      status := StepObject(i, host, vm, fs, delta);
      SteppedUpToNext(initial, i, host, vm, fs, delta);
      UpdateTraceNext(initial, i, host, vm, fs, delta);
      done' := done + ObjectStep(initial[i], i, host, vm, fs, delta).0;
    }

    /**
     * `EventHandler::update` for `State` (the log window and the GUI are not
     * modelled): the gameobjects up to the first panic are stepped, the
     * rest keep their state.
     */
    method Update(host: Host, vm: Vm, fs: map<string, string>, delta: real) returns (status: Status)
      modifies this
      ensures trace == old(trace) + UpdateTrace(old(entities), host, vm, fs, delta).0
      ensures status == UpdateTrace(old(entities), host, vm, fs, delta).1
      ensures status.Completed? ==> entities == SteppedUpTo(old(entities), |old(entities)|, host, vm, fs, delta)
      ensures status.Aborted? ==>
        exists k :: 0 < k <= |old(entities)| && entities == SteppedUpTo(old(entities), k, host, vm, fs, delta)
          && UpdateTrace(old(entities)[..k - 1], host, vm, fs, delta).1.Completed?
          && UpdateTrace(old(entities)[..k], host, vm, fs, delta).1.Aborted?
    {
      ghost var start := trace;
      ghost var initial := entities;
      ghost var done: seq<Call> := [];
      var i := 0;
      status := Completed;
      while i < |entities| && status.Completed?
        invariant 0 <= i <= |entities| == |initial|
        invariant UpdateTrace(initial[..i], host, vm, fs, delta) == (done, status)
        invariant trace == start + done
        invariant entities == SteppedUpTo(initial, i, host, vm, fs, delta)
        invariant status.Aborted? ==> 0 < i && UpdateTrace(initial[..i - 1], host, vm, fs, delta).1.Completed?
      {
        status, done := StepNext(i, host, vm, fs, delta, initial, start, done);
        i := i + 1;
      }
      if status.Aborted? {
        UpdateTraceStops(initial, i, host, vm, fs, delta);
      } else {
        assert initial[..i] == initial;
      }
    }

    /** `EventHandler::draw` for `State` (the canvas and the GUI are not modelled). */
    method Draw()
      modifies this`trace
      ensures trace == old(trace) + Rendered(entities)
    {
      ghost var start := trace;
      var i := 0;
      while i < |entities|
        invariant 0 <= i <= |entities|
        invariant trace == start + Rendered(entities[..i])
      {
        assert entities[..i + 1][..i] == entities[..i];
        if entities[i].isLoaded {
          trace := trace + [Render(i)];
        }
        i := i + 1;
      }
      assert entities[..i] == entities;
    }
  }
}

=== FILE: text.dfy ===
/**
 * String helpers behind the engine's log formatting: substring search
 * (Rust's `str::contains`), the deletion of every "./" (Rust's
 * `str::replace("./", "")`) and the decimal rendering of integers that
 * Rust's `{}` formatting produces.
 */
module Text {

  predicate StartsWith(s: string, p: string)
  {
    |p| <= |s| && s[..|p|] == p
  }

  /** `s.contains(p)`: `p` occurs somewhere in `s`. */
  predicate Contains(s: string, p: string)
    decreases |s|
  {
    StartsWith(s, p) || (|s| > 0 && Contains(s[1..], p))
  }

  /**
   * `s.replace("./", "")`: one left-to-right pass that deletes every
   * non-overlapping occurrence of "./".
   */
  function StripDotSlash(s: string): (r: string)
    ensures |r| <= |s|
  {
    if |s| == 0 then ""
    else if |s| >= 2 && s[0] == '.' && s[1] == '/' then StripDotSlash(s[2..])
    else [s[0]] + StripDotSlash(s[1..])
  }

  /** Each "./" is deleted where it stands: what comes before and after it is stripped independently. */
  lemma {:induction false} StripDeletesOccurrence(a: string, b: string)
    ensures StripDotSlash(a + "./" + b) == StripDotSlash(a) + StripDotSlash(b)
    decreases |a|
  {
    var s := a + "./" + b;
    if |a| == 0 {
      assert s[2..] == b;
    } else {
      assert s[0] == a[0] && s[1] == (if |a| >= 2 then a[1] else '.');
      if |a| >= 2 && a[0] == '.' && a[1] == '/' {
        assert s[2..] == a[2..] + "./" + b;
        StripDeletesOccurrence(a[2..], b);
      } else {
        assert s[1..] == a[1..] + "./" + b;
        StripDeletesOccurrence(a[1..], b);
      }
    }
  }

  /** Unfolding Contains: an occurrence in a suffix is an occurrence. */
  lemma {:induction false} ContainsInSuffix(s: string, p: string, k: nat)
    requires k <= |s|
    ensures Contains(s[k..], p) ==> Contains(s, p)
    decreases k
  {
    if k > 0 {
      assert s[1..][k - 1..] == s[k..];
      ContainsInSuffix(s[1..], p, k - 1);
    }
  }

  /** A string without "./" passes through unchanged. */
  lemma {:induction false} StripWithoutOccurrence(s: string)
    requires !Contains(s, "./")
    ensures StripDotSlash(s) == s
    decreases |s|
  {
    if |s| > 0 {
      assert |s| >= 2 ==> s[..2] == [s[0], s[1]];
      StripWithoutOccurrence(s[1..]);
      assert s == [s[0]] + s[1..];
    }
  }

  /** The decimal digit for 0..9. */
  function DigitChar(d: nat): (c: char)
    requires d < 10
    ensures '0' <= c <= '9'
  {
    "0123456789"[d]
  }

  predicate IsDigit(c: char)
  {
    '0' <= c <= '9'
  }

  predicate AllDigits(s: string)
  {
    forall i :: 0 <= i < |s| ==> IsDigit(s[i])
  }

  /** Rust's `{}` for an unsigned integer: decimal, no padding, no sign. */
  function NatToString(n: nat): (s: string)
    ensures |s| > 0 && AllDigits(s)
    ensures s[0] != '0' || n == 0
  {
    if n < 10 then [DigitChar(n)] else NatToString(n / 10) + [DigitChar(n % 10)]
  }

  /** Reads a decimal numeral back (the inverse of NatToString). */
  function ParseNat(s: string): nat
    requires AllDigits(s)
  {
    if |s| == 0 then 0 else 10 * ParseNat(s[..|s| - 1]) + (s[|s| - 1] - '0') as nat
  }

  lemma DigitValue(d: nat)
    requires d < 10
    ensures (DigitChar(d) - '0') as nat == d
  {
    assert "0123456789"[d] as int == '0' as int + d;
  }

  /** Decimal rendering loses nothing: parsing it gives the number back. */
  lemma {:induction false} ParseNatToString(n: nat)
    ensures ParseNat(NatToString(n)) == n
    decreases n
  {
    var s := NatToString(n);
    if n < 10 {
      DigitValue(n);
      assert s[..0] == [];
    } else {
      ParseNatToString(n / 10);
      DigitValue(n % 10);
      assert s[..|s| - 1] == NatToString(n / 10);
    }
  }

  /** Different numbers render differently. */
  lemma NatToStringInjective(a: nat, b: nat)
    requires NatToString(a) == NatToString(b)
    ensures a == b
  {
    ParseNatToString(a);
    ParseNatToString(b);
  }

  /** Rust's `{}` for a signed integer: a leading '-' for negatives. */
  function IntToString(i: int): (s: string)
    ensures |s| > 0
    ensures s[0] == '-' <==> i < 0
  {
    if i < 0 then "-" + NatToString(-i) else NatToString(i)
  }

  /**
   * Two strings built as `x + [sep] + y` split back uniquely when the
   * separator occurs in neither left part.
   */
  lemma SplitAtSeparator(x: string, y: string, x': string, y': string, sep: char)
    requires forall i :: 0 <= i < |x| ==> x[i] != sep
    requires forall i :: 0 <= i < |x'| ==> x'[i] != sep
    requires x + [sep] + y == x' + [sep] + y'
    ensures x == x' && y == y'
  {
    var s, s' := x + [sep] + y, x' + [sep] + y';
    assert forall i :: 0 <= i < |x| ==> s[i] == x[i];
    assert forall i :: 0 <= i < |x'| ==> s'[i] == x'[i];
    assert s[|x|] == sep && s'[|x'|] == sep;
    assert |x| == |x'|;
    assert x == s[..|x|] && x' == s'[..|x'|];
    assert y == s[|x| + 1..] && y' == s'[|x'| + 1..];
  }
}

=== FILE: wrappers.dfy ===
/**
 * Outcome types shared by the whole model.
 *
 * Rust code in the engine has three ways to finish: it returns `Ok`, it
 * returns `Err`, or it panics (an `unwrap()` on an error, an explicit
 * `panic!`).  A panic ends the frame loop and the process, so the model keeps
 * it apart from an error that is returned to the caller.
 */
module Wrappers {

  datatype Option<+T> = None | Some(value: T)

  /** A Rust `Result` whose error is carried as its message. */
  datatype Result<+T> = Ok(value: T) | Err(error: string)

  /** What a Rust call that may also panic produces. */
  datatype Outcome<+T> = Success(value: T) | Failure(error: string) | Panic(message: string)

  /** What a Rust call returning `()` that can only panic produces. */
  datatype Status = Completed | Aborted(message: string)

  /** `r.unwrap()` on a Rust `Result`: an error becomes a panic. */
  function Unwrap<T>(r: Outcome<T>): (u: Outcome<T>)
    ensures !u.Failure?
    ensures u.Success? <==> r.Success?
    ensures r.Success? ==> u == r
  {
    match r
    case Success(v) => Success(v)
    case Failure(e) => Panic(e)
    case Panic(m) => Panic(m)
  }

  /** Forget the value of an outcome, keeping how it finished. */
  function Forget<T>(r: Outcome<T>): (u: Outcome<()>)
    ensures u.Success? <==> r.Success?
    ensures u.Failure? <==> r.Failure?
    ensures r.Failure? ==> u.error == r.error
    ensures r.Panic? ==> u == Panic(r.message)
  {
    match r
    case Success(_) => Success(())
    case Failure(e) => Failure(e)
    case Panic(m) => Panic(m)
  }
}
